=== FILE: README.md ===
# rdma-pktgen, modelled in Dafny

rdma-pktgen is a pair of small RDMA-verbs programs for raw Ethernet traffic.
The transmitter (`tx.c`, and its single-file variant `rdma-pktgen.c`) sends
a corpus of packets as fast as the NIC allows. The corpus is either one
built-in 75-byte DNS query frame or every record of a classic libpcap capture
file. The receiver (`rx.c`) installs a sniffer flow and counts what it
captures. Both keep a fixed pipeline of `depth` batches of `size` chained work
requests. The transmitter re-posts a batch as soon as its completion is polled.
The receiver re-posts batch `last_id` only when a later poll ends in a
different batch.

This project models the parts of those programs that decide what is sent and
when:

| file | module | what it models |
|---|---|---|
| `wrappers.dfy` | `Wrappers` | `Option` and `Result` (the error paths of the C `assert`s) |
| `bytes.dfy` | `Bytes` | bytes, and little-endian 32-bit words as the x86 host reads them |
| `pcap.dfy` | `Pcap` | `load_pcap` as a pure function; an independent definition of the record chain; a writer of the format and the round trip |
| `desc_array.dfy` | `DescArray` | `load_pcap` as written: the record loop and the doubling `realloc` growth of the descriptor array |
| `corpus.dfy` | `Corpus` | the default corpus, the `argc` switch, the registered region |
| `verbs.dfy` | `Verbs` | queue-pair sizing and the RESET → INIT → RTR → RTS bring-up of `rdma_create_qp` |
| `throughput.dfy` | `Throughput` | the `tx` / `rx` completion counters and their report thresholds |
| `tx.dfy` | `Tx` | batch construction, pipeline priming, the poll / re-post loop |
| `rx.dfy` | `Rx` | receive buffer layout, start-up order, the busy poll, the `last_id` re-post rule |
| `seqs.dfy` | `Seqs` | small sequence and arithmetic helpers |

The hardware is modelled as an environment. On transmit it may complete only
a batch that is on the send queue. On receive it completes the posted
requests in posting order. Under these assumptions the model shows the
following:

- Neither engine ever fails, and no queue ever overflows.
- Each transmit slot alternates between posted and completed. The send queue
  may run empty while completions wait to be polled.
- After every poll that follows start-up, at least `size` receive requests
  are posted and not yet polled.
- The receive rule re-posts a batch only after all of its buffers were
  consumed, and exactly once.

The capture loader is proved equal to an independent definition of the
format. It is also proved to invert a writer of the format.

A record header is read only while it ends strictly before the end of the
file (rdma-pktgen.c:97, tx.c:89). So a zero-length final record, which the
capture format allows, is not loaded: its header ends exactly at EOF.
`Pcap.HeaderAtEofIgnored` states this, and `Pcap.LoadRoundTrip` requires the
last payload to be non-empty for this reason.

## Model

| member | source | states |
|---|---|---|
| `Bytes.Le32OfEncoded` | rdma-pktgen.c:73-79 | a 32-bit field written little-endian reads back as the same word |
| `Bytes.Le32` | rdma-pktgen.c:73-79 | four bytes read as a header word give a 32-bit value; `Bytes.Le32OfEncoded` shows the read inverts the little-endian encoding |
| `Pcap.CheckHeader` | rdma-pktgen.c:82-87 | the header passes exactly when magic, version, zone, accuracy, snap length (at least 64) and link type (Ethernet) are all as required; a failure is one of the six header errors |
| `Pcap.ParseHeader` | rdma-pktgen.c:73-80 | the six header fields are 32-bit words |
| `Pcap.Scan` | rdma-pktgen.c:96-105 | every descriptor the record loop yields starts after the header it began at and lies inside the file; its only failure is a truncated record at or after that point |
| `Pcap.Load` | rdma-pktgen.c:71 | a file shorter than 24 + 16 + 64 bytes is refused; a successful load had a long enough file with a valid header |
| `Pcap.ScanIsChain` | rdma-pktgen.c:96-105 | the record loop yields `ds` exactly when `ds` is the chain of consecutive, fully contained records ending at the first header that does not end before EOF |
| `Pcap.ScanFailsOnTruncation` | rdma-pktgen.c:99 | the record loop fails only on a header that is read but whose payload runs past EOF, after a chain of good records |
| `Pcap.LoadIsChain` | tx.c:50-101 | a file loads as `ds` exactly when it is long enough, its header is valid and `ds` is the record chain after the header |
| `Pcap.LoadedDescriptors` | tx.c:88-97 | a successful load gives at least one descriptor, the first right after the first record header, every payload inside the file, and at most 16 unread trailing bytes |
| `Pcap.HeaderRejectedFirst` | tx.c:74-79 | a bad header is reported as a header error before any record is looked at: the result depends on the first 24 bytes only |
| `Pcap.TruncatedRecordRejected` | tx.c:91 | a payload running past EOF after good records is fatal and names that record; it is never skipped |
| `Pcap.TruncatedScan` | tx.c:88-91 | the same from any position of the record loop |
| `Pcap.HeaderAtEofIgnored` | tx.c:89 | a 16-byte header appended right after a file's last record is not read: the loaded descriptors do not change |
| `Pcap.HeaderRoundTrip` | tx.c:65-72 | an encoded file header parses back to the same six fields |
| `Pcap.RecordHead` | tx.c:81-87 | an encoded record found anywhere in a file, with its header ending before EOF, is read as one descriptor spanning its payload |
| `Pcap.RecordsRoundTrip` | tx.c:88-97 | encoded records found in a file are read as the layout's descriptors, and the next header starts where the encoding ends |
| `Pcap.LoadRoundTrip` | rdma-pktgen.c:58-109 | loading a written capture (last payload non-empty, at least 104 bytes) gives one descriptor per record, in order, each spanning exactly that record's payload |
| `DescArray.FloorPow2Facts` | rdma-pktgen.c:101 | the largest power of two not above `n` is a power of two, is at most `n` and more than `n / 2`, and moves only when `n` is a power of two |
| `DescArray.CapacityGrowth` | rdma-pktgen.c:101-102 | after `n` appends the array has room for more than `n` entries, grows to `2n` exactly when `n` is a power of two, and otherwise keeps its size |
| `DescArray.Grow` | rdma-pktgen.c:102 | `realloc` to `cap` entries keeps the first `keep` entries |
| `DescArray.LoadPcap` | rdma-pktgen.c:58-109 | the loop with its growing array succeeds exactly when the pure loader does, with the same error otherwise; on success the first `count` entries are the loader's descriptors and the array has the doubling rule's capacity |
| `Corpus.DefaultCorpus` | rdma-pktgen.c:47-56 | without a capture the corpus is one 75-byte packet, which is the whole registered region |
| `Corpus.FileCorpus` | rdma-pktgen.c:107-108 | with a capture the corpus is the loader's descriptors, the whole file is registered, and every packet lies inside it |
| `Corpus.SelectCorpus` | rdma-pktgen.c:113-122 | two arguments keep the built-in packet and three load the capture; the usage error comes exactly from any other count, and a capture that fails to load gives that load error, never the usage error; a selected corpus is non-empty and inside its region |
| `Corpus.ExitFor` | tx.c:113-115 | only the usage error returns -1; a bad capture aborts the program |
| `Throughput.Account` | tx.c:159-170 | a poll's count is added; a report fires exactly when the total reaches the threshold, with that total, and the count restarts at 0 under the new threshold; otherwise the threshold stays |
| `Throughput.AccountAllConserves` | tx.c:147-170 | over any run of polls, reported totals plus the pending count equal the start count plus everything polled; with thresholds of at least 1 the count stays below its threshold |
| `Throughput.FixedRefreshInvariant` | rdma-pktgen.c:206-215 | with the threshold `(64 << 20) / TXSZ` used after every report, the count always stays below it |
| `Throughput.FixedRefreshNoOverflow` | rdma-pktgen.c:195-206 | with the same threshold `(64 << 20) / TXSZ` at every poll and at most TXNB completions per poll, the `int tx` of rdma-pktgen.c never exceeds INT_MAX |
| `Verbs.BringUpOutcome` | common.c:8-59 | bring-up succeeds exactly when every call is granted and then leaves the queue pair ready to send; otherwise it stops at the first refused call |
| `Verbs.Run` | common.c:8-59 | a refused bring-up names a call that was made and refused; a successful one had every call granted |
| `Verbs.FirstRefused` | common.c:8-59 | the first refused call is refused, and every call before it was granted |
| `Verbs.BringUpReachesRts` | common.c:40-54 | the three `ibv_modify_qp` calls take the queue pair from RESET to RTS |
| `Verbs.RunAll` | common.c:8-59 | when every call is granted, bring-up returns the state the calls lead to |
| `Verbs.RunFirstRefused` | common.c:8-59 | bring-up reports the first refused call |
| `Tx.PacketIndex` | tx.c:127 | the packet a request sends is always inside the corpus |
| `Tx.Request` | tx.c:125-139 | request `j` of batch `i` carries id `i` and sends corpus element `(i * size + j) mod n`, address and length; it links to `j + 1`, and only the last one of its batch ends the chain and is signalled |
| `Tx.BuildBatches` | tx.c:123-139 | the nested construction loop builds `depth` batches of `size` requests, each equal to `Request` |
| `Tx.RoundRobinOrder` | tx.c:127-129 | for every `k < depth * size`, the `k`-th request of the pipeline (request `k mod size` of batch `k / size`) sends the address and length of corpus element `k mod n`, wrapping around the corpus as often as needed |
| `Tx.CorpusCovered` | tx.c:125-129 | when the pipeline holds at least as many requests as the corpus has packets, every packet is sent by some request |
| `Tx.PostSend` | tx.c:143-144 | a post that succeeds had room on the send queue, adds one batch to it and is logged |
| `Tx.PostAll` | tx.c:155-158 | a successful series of posts logs exactly those batches, in order, adds them to the send queue and touches neither the completions nor the counter; a failure is a bad id or a full queue |
| `Tx.OutstandingBound` | tx.c:121 | under the invariant the outstanding requests fit in the `max_send_wr = TXNB * TXSZ` the queue pair is created with, and the completions waiting fit in its `cqe = TXNB` entries, so one poll can return them all |
| `Tx.Prime` | tx.c:141-145 | priming that succeeds posts batches 0 .. depth-1 in order and leaves `depth` batches outstanding, none completed |
| `Tx.Complete` | tx.c:137-138 | only a batch on the send queue can complete; exactly its in-flight count drops by one and its completion joins the completion queue, the post log and the `tx` counter are untouched, and the number of outstanding batches is unchanged |
| `Tx.Poll` | tx.c:151-159 | a poll takes at most `depth` completions, oldest first, re-posts exactly their batches in that order, leaves the number of outstanding batches unchanged and adds the polled count to the throughput counter |
| `Tx.Step` | tx.c:151-171 | a failed poll is fatal; a completion succeeds or is spurious; a successful step conserves the outstanding batches and only appends posts |
| `Tx.RunTx` | tx.c:151-171 | over any run of events the number of outstanding batches is conserved and the post log only grows |
| `Tx.PostOneCompleted` | tx.c:156-157 | re-posting one completed batch when the queue has room succeeds and puts exactly that batch back |
| `Tx.RepostableTail` | tx.c:155-158 | after re-posting the first completed batch, the rest are still re-postable |
| `Tx.PostAllCompleted` | tx.c:155-158 | re-posting distinct completed batches succeeds, logs exactly those posts, and fills the send queue |
| `Tx.PostAllMarks` | tx.c:155-158 | each re-posted batch is back on the send queue exactly once, and every other slot is left alone |
| `Tx.PrimeEstablishes` | tx.c:141-145 | filling the pipeline posts every batch once, in slot order, and establishes the invariant |
| `Tx.CompletePreserves` | tx.c:137-138 | a completion of a batch on the send queue moves it to the completion queue and keeps the invariant |
| `Tx.PollPreserves` | tx.c:151-158 | a poll returns all pending completions (at most TXNB), re-posts exactly the batches they name, once each, and keeps the invariant |
| `Tx.StepPreserves` | tx.c:151-171 | any step of an honest hardware keeps the invariant and never fails |
| `Tx.RunPreserves` | tx.c:151-171 | the same for any number of steps |
| `Tx.EngineSafe` | tx.c:141-171 | from start-up, any honest history keeps each slot alternating between posted and completed, with at most TXNB * TXSZ requests outstanding |
| `Tx.RoundCompletions` | tx.c:137-138 | with the TX pipeline primed, batches 0 and 1 complete in turn, both waiting on the completion queue |
| `Tx.RoundPoll` | tx.c:151-158 | one poll of the two completions re-posts batch 0 then batch 1 and puts both back on the send queue |
| `Tx.RoundRobinRound` | tx.c:141-158 | both batches complete, one poll re-posts batch 0 then batch 1, and both are back on the send queue |
| `Rx.CheckArgs` | rx.c:20-23 | the receiver runs exactly with one argument; otherwise it reports a usage error, and the program returns -1 |
| `Rx.ExitFor` | rx.c:20-23 | only the usage error returns -1; every other receiver error is a failed `assert` and aborts |
| `Rx.BufferInside` | rx.c:35 | buffer `[i][j]` lies inside the registered array |
| `Rx.RecvRequest` | rx.c:33-44 | receive request `j` of batch `i` carries id `i`, addresses a full PKTSZ buffer inside the region, and links to `j + 1` except the last |
| `Rx.Startup` | rx.c:46-58 | the sniffer flow is installed once, after every post |
| `Rx.Perform` | rx.c:47-58 | posting a batch succeeds exactly when its `size` requests fit the receive queue, appends them and logs it, and is otherwise a full queue; installing the flow succeeds exactly when the device grants it, recording how many requests are pending, and a refusal is fatal |
| `Rx.FillPostsPending` | rx.c:46-50 | posting the first `n` batches succeeds and leaves their requests pending in posting order, with no flow installed yet |
| `Rx.BuffersDisjoint` | rx.c:35-36 | no two receive requests share a byte of buffer |
| `Rx.StartupFills` | rx.c:46-60 | start-up fails exactly when the device refuses the sniffer flow. Otherwise every batch is posted in order, and when the flow is installed all `depth * size` buffers are pending, the full `max_recv_wr` the queue pair is created with; with two batches the result is `Rx.Primed` |
| `Rx.AwaitCompletions` | rx.c:66-69 | the busy poll retries empty returns; it fails exactly when an error comes after only empty returns; on success it returns between 1 and the maximum completions |
| `Rx.LastIdRule` | rx.c:70-75 | a batch is re-posted exactly when the poll's last id differs from `last_id`; that batch is the remembered one; the last id is remembered |
| `Rx.LastIdInRange` | rx.c:70-74 | since completions only carry posted ids, `last_id` stays a valid batch index |
| `Rx.RxPoll` | rx.c:65-76 | a poll of no completions or more than are pending is outside the hardware contract. Otherwise `last_id` becomes the last id polled and the receive queue holds the unpolled requests, in order, followed by the `size` requests of batch `last_id` exactly when that id changes, which is also exactly when it is logged as re-posted; a refused re-post is a full queue; the polled count is added to the throughput counter |
| `Rx.Primed` | rx.c:46-60 | after start-up with two batches, `last_id` is 0, batches 0 and 1 are logged and their `2 * size` requests pending, and the state has the two-batch FIFO shape |
| `Rx.FifoPollSafe` | rx.c:65-76 | with two batches and in-order completion, every poll succeeds. A batch is re-posted exactly when the poll's last id changes, at most once per poll, and only when none of its requests is still pending. After every poll at least `size` receive requests are posted and not yet polled, and never more than the queue holds |
| `Rx.BoundaryExample` | rx.c:70-75 | polling all of batch 0 re-posts nothing; the next poll, which ends in batch 1, re-posts batch 0 exactly once |
| `Rx.WiderPipelineStarves` | rx.c:70-75 | with three one-request batches, a poll returning all three re-posts only batch 0 and leaves batch 1 neither pending nor remembered; the next poll re-posts the remembered batch 2 |
| `Rx.WiderPipelineNextPoll` | rx.c:70-75 | the poll after that one ends in batch 0 and re-posts batch 2 |
| `Rx.WiderPipelineLosesBatch` | rx.c:65-76 | from that state, batch 1 is never posted again, under any history of polls |
| `Rx.RunSafe` | rx.c:65-88 | over any in-order history the receiver never fails, `last_id` stays valid and the counter stays below its threshold |
| `Rx.RunRx` | rx.c:65-76 | over any run of polls, posts are only appended, at most one per poll |
| `Rx.LostPoll` | rx.c:70-75 | a batch that is neither pending nor remembered is not re-posted by a poll and stays so |
| `Rx.LostForever` | rx.c:65-76 | such a batch is never posted again, over any run of polls |

## Left out

- The packet bytes of `packet1` are left out; only their count (75) matters to the engines.
- File I/O is left out. This covers `open`, `fstat` and `mmap` and their failures. The file is the byte sequence they would expose.
- Memory failures are left out: a `realloc` returning NULL, and the overflow of pointer arithmetic while the loop walks the mapped file.
- The narrowing of `cap_len` into the descriptor's `int len` is left out. It only matters for a payload above 2^31 - 1 bytes. Descriptor lengths are natural numbers here.
- `DescArray.IsPowerOfTwo`: the growth test `n & (n - 1) == 0` is modelled arithmetically on natural numbers, not as a bit operation.
- Word values are read little-endian. This is an assumption about the host; the C code reads them natively.
- Device lookup by name in `ibv_get_device_list` is left out; it becomes an accepted or refused call. So are the content of the verbs structures, `lkey`, and `__builtin_prefetch`.
- Time, `gettimeofday` and the floating-point rate arithmetic are left out. The next report threshold of `tx.c` and `rx.c` is an input of at least 1, as both programs make it. The printed line is left out.
- `Rx.FifoPollSafe` holds only for the RXNB = 2 pipeline that rx.c uses. With three or more batches, a poll that crosses two batch boundaries re-posts only batch `last_id`. The batch in between is then neither pending nor remembered, and `Rx.LostForever` proves such a batch is never posted again (`Rx.WiderPipelineStarves`, `Rx.WiderPipelineLosesBatch`).
- `DescArray.LoadPcap` counts records with an unbounded natural. In C, `packets_nb` is a 32-bit `unsigned` (tx.c:46, rdma-pktgen.c:54), and `packets_nb * 2` (tx.c:94, rdma-pktgen.c:102) wraps to 0 at 2^31 records, after which the array is overrun. The agreement with the C code holds for captures of fewer than 2^31 records, which every file smaller than 32 GiB satisfies.
- `Rx.RunRx` takes the completion count of each poll directly. The busy-wait loop that retries empty polls is modelled separately by `Rx.AwaitCompletions` and is not composed with `Rx.RunRx`.
- A receive request counts as pending from its post until its completion is polled, so the pending requests include buffers the NIC has already filled. Whether the NIC finds a free buffer for an arriving frame, and drops the frame otherwise, is not modelled.
- The receive hardware is assumed to complete in posting order. The transmit hardware may complete the batches on the send queue in any order.
- `simple_udp.py`, the traffic helper script, is not part of this model.

=== FILE: bytes.dfy ===
/** Bytes and the little-endian 32-bit words of a capture file.
    The C loader reads its header words in host byte order through `mmap`;
    the model assumes a little-endian (x86) host. */
module Bytes {

  type byte = b: int | 0 <= b < 256

  const WORD_LIMIT: int := 0x1_0000_0000

  /** The unsigned 32-bit word stored little-endian at `s[at..at+4]`. */
  function Le32(s: seq<byte>, at: nat): (w: nat)
    requires at + 4 <= |s|
    ensures w < WORD_LIMIT
  {
    var b0: int, b1: int, b2: int, b3: int := s[at], s[at + 1], s[at + 2], s[at + 3];
    b0 + 256 * (b1 + 256 * (b2 + 256 * b3))
  }

  /** The four little-endian bytes of a 32-bit word. */
  function EncodeLe32(w: nat): (s: seq<byte>)
    requires w < WORD_LIMIT
    ensures |s| == 4
  {
    var q1 := w / 256;
    var q2 := q1 / 256;
    var q3 := q2 / 256;
    [w % 256, q1 % 256, q2 % 256, q3]
  }

  /** Splitting off the low byte. */
  lemma LowByte(x: nat)
    ensures x == x % 256 + 256 * (x / 256)
  {
  }

  /** Decoding the four bytes of an encoded word gives the word back. */
  lemma Le32OfEncoded(s: seq<byte>, at: nat, w: nat)
    requires w < WORD_LIMIT
    requires at + 4 <= |s| && s[at..at + 4] == EncodeLe32(w)
    ensures Le32(s, at) == w
  {
    var q1 := w / 256;
    var q2 := q1 / 256;
    var q3 := q2 / 256;
    LowByte(w);
    LowByte(q1);
    LowByte(q2);
    assert s[at] == s[at..at + 4][0] == w % 256;
    assert s[at + 1] == s[at..at + 4][1] == q1 % 256;
    assert s[at + 2] == s[at..at + 4][2] == q2 % 256;
    assert s[at + 3] == s[at..at + 4][3] == q3;
  }

  /** A word is determined by its four bytes alone. */
  lemma Le32Local(s: seq<byte>, t: seq<byte>, at: nat, bt: nat)
    requires at + 4 <= |s| && bt + 4 <= |t|
    requires s[at..at + 4] == t[bt..bt + 4]
    ensures Le32(s, at) == Le32(t, bt)
  {
    assert s[at] == s[at..at + 4][0] == t[bt];
    assert s[at + 1] == s[at..at + 4][1] == t[bt + 1];
    assert s[at + 2] == s[at..at + 4][2] == t[bt + 2];
    assert s[at + 3] == s[at..at + 4][3] == t[bt + 3];
  }
}

=== FILE: corpus.dfy ===
/** The packet corpus the transmit engines send from, and the argument
    switch of tx.c / rdma-pktgen.c that chooses it: the one built-in packet
    `packet1`, or every record of a capture file. */
module Corpus {
  import opened Wrappers
  import opened Bytes
  import opened Pcap

  /** `sizeof(packet1)`: a 14-byte Ethernet, 20-byte IPv4, 8-byte UDP and
      33-byte DNS query frame. Only its length matters to the engines. */
  const PACKET1_SIZE: nat := 75

  /** The memory registered for the transmit engine. */
  datatype Region = BuiltinPacket | CaptureFile

  /** Descriptors are offsets into the registered region of `regionLen` bytes. */
  datatype Corpus = Corpus(packets: seq<Desc>, region: Region, regionLen: nat)

  datatype StartError = Usage | BadCapture(cause: LoadError)

  /** How the program ends on a start-up error: `return -1` after the usage
      message, or an aborting `assert` inside the loader. */
  datatype Exit = Returned(code: int) | Aborted

  /** A corpus the engines can use: non-empty, every packet inside the region. */
  predicate Valid(c: Corpus) {
    && |c.packets| >= 1
    && forall k :: 0 <= k < |c.packets| ==> c.packets[k].offset + c.packets[k].len <= c.regionLen
  }

  /** The default corpus: one descriptor covering the whole built-in packet,
      which is itself the registered region. */
  function DefaultCorpus(): (c: Corpus)
    ensures Valid(c)
    ensures |c.packets| == 1 && c.packets[0].len == PACKET1_SIZE && c.regionLen == PACKET1_SIZE
  {
    Corpus([Desc(0, PACKET1_SIZE)], BuiltinPacket, PACKET1_SIZE)
  }

  /** The corpus of a capture file: its descriptors, with the whole mapped file registered. */
  function FileCorpus(file: seq<byte>): (r: Result<Corpus, LoadError>)
    ensures r.Ok? <==> Load(file).Ok?
    ensures r.Ok? ==> Valid(r.value) && r.value.packets == Load(file).value
    ensures r.Ok? ==> r.value.region == CaptureFile && r.value.regionLen == |file|
    ensures r.Err? ==> r.error == Load(file).error
  {
    match Load(file)
    case Err(e) => Err(e)
    case Ok(ds) =>
      LoadedDescriptors(file);
      Ok(Corpus(ds, CaptureFile, |file|))
  }

  /** `main`'s argument switch: two arguments keep the built-in packet, three
      load the capture file named by the third, anything else is a usage error. */
  function SelectCorpus(argc: int, file: seq<byte>): (r: Result<Corpus, StartError>)
    ensures r.Ok? ==> Valid(r.value)
    ensures argc == 2 ==> r == Ok(DefaultCorpus())
    ensures argc == 3 ==> (r.Ok? <==> Load(file).Ok?)
    ensures argc == 3 && r.Ok? ==> r.value.packets == Load(file).value && r.value.regionLen == |file|
    ensures r == Err(Usage) <==> argc != 2 && argc != 3
    ensures argc == 3 && r.Err? ==> r.error == BadCapture(Load(file).error)
  {
    if argc == 2 then Ok(DefaultCorpus())
    else if argc == 3 then
      match FileCorpus(file)
      case Ok(c) => Ok(c)
      case Err(e) => Err(BadCapture(e))
    else Err(Usage)
  }

  function ExitFor(e: StartError): (x: Exit)
    ensures x == Returned(-1) <==> e == Usage
    ensures e.BadCapture? ==> x == Aborted
  {
    match e
    case Usage => Returned(-1)
    case BadCapture(_) => Aborted
  }
}

=== FILE: desc_array.dfy ===
/** The loader as the C code runs it: a loop over record headers that appends
    each descriptor to a heap array grown with `realloc` to twice the count
    whenever the new count is a power of two. The result is shown to agree
    with the pure `Pcap.Load`. */
module DescArray {
  import opened Bytes
  import opened Wrappers
  import opened Pcap

  /** The growth test `0 == (n & (n - 1))` of an unsigned count n >= 1. */
  predicate IsPowerOfTwo(n: nat)
    decreases n
  {
    n == 1 || (n >= 2 && n % 2 == 0 && IsPowerOfTwo(n / 2))
  }

  /** The largest power of two not above `n`. */
  function FloorPow2(n: nat): nat
    requires n >= 1
    decreases n
  {
    if n == 1 then 1 else 2 * FloorPow2(n / 2)
  }

  /** Array capacity after `n` appends: nothing is allocated before the first
      append, which grows the array to 2. */
  function Capacity(n: nat): nat {
    if n == 0 then 0 else 2 * FloorPow2(n)
  }

  lemma {:induction false} FloorPow2IsPow(n: nat)
    requires n >= 1
    ensures IsPowerOfTwo(FloorPow2(n))
    decreases n
  {
    if n > 1 {
      FloorPow2IsPow(n / 2);
      var f := FloorPow2(n / 2);
      assert FloorPow2(n) == 2 * f;
      assert (2 * f) / 2 == f && (2 * f) % 2 == 0;
    }
  }

  lemma {:induction false} FloorPow2Bounds(n: nat)
    requires n >= 1
    ensures FloorPow2(n) <= n < 2 * FloorPow2(n)
    decreases n
  {
    if n > 1 {
      FloorPow2Bounds(n / 2);
      assert FloorPow2(n) == 2 * FloorPow2(n / 2);
    }
  }

  lemma {:induction false} FloorPow2OfPow(n: nat)
    requires n >= 1 && IsPowerOfTwo(n)
    ensures FloorPow2(n) == n
    decreases n
  {
    if n > 1 {
      assert n % 2 == 0 && IsPowerOfTwo(n / 2);
      FloorPow2OfPow(n / 2);
      assert FloorPow2(n) == 2 * FloorPow2(n / 2);
    }
  }

  /** Between two powers of two the floor does not move. */
  lemma {:induction false} FloorPow2Step(n: nat)
    requires n >= 1 && !IsPowerOfTwo(n)
    ensures n >= 3 && FloorPow2(n) == FloorPow2(n - 1)
    decreases n
  {
    assert n != 1 && n != 2;
    assert FloorPow2(n) == 2 * FloorPow2(n / 2);
    if n % 2 == 1 {
      assert (n - 1) / 2 == n / 2;
      assert FloorPow2(n - 1) == 2 * FloorPow2((n - 1) / 2);
    } else {
      assert !IsPowerOfTwo(n / 2);
      FloorPow2Step(n / 2);
      assert (n - 1) / 2 == n / 2 - 1;
      assert FloorPow2(n - 1) == 2 * FloorPow2((n - 1) / 2);
    }
  }

  lemma FloorPow2Facts(n: nat)
    requires n >= 1
    ensures IsPowerOfTwo(FloorPow2(n))
    ensures FloorPow2(n) <= n < 2 * FloorPow2(n)
    ensures IsPowerOfTwo(n) ==> FloorPow2(n) == n
    ensures !IsPowerOfTwo(n) ==> n >= 3 && FloorPow2(n) == FloorPow2(n - 1)
  {
    FloorPow2IsPow(n);
    FloorPow2Bounds(n);
    if IsPowerOfTwo(n) {
      FloorPow2OfPow(n);
    } else {
      FloorPow2Step(n);
    }
  }

  /** The capacity grows, to twice the count, exactly when the count reaches a
      power of two, and always exceeds the count once something is stored. */
  lemma CapacityGrowth(n: nat)
    requires n >= 1
    ensures Capacity(n) > n
    ensures IsPowerOfTwo(n) ==> Capacity(n) == 2 * n
    ensures !IsPowerOfTwo(n) ==> Capacity(n) == Capacity(n - 1)
  {
    FloorPow2Facts(n);
  }

  /** `realloc`: a new array of `cap` entries whose first `keep` entries are copied. */
  method Grow(a: array<Desc>, keep: nat, cap: nat) returns (b: array<Desc>)
    requires keep <= a.Length && keep <= cap
    ensures fresh(b)
    ensures b.Length == cap
    ensures b[..keep] == a[..keep]
  {
    b := new Desc[cap];
    var i := 0;
    while i < keep
      invariant i <= keep
      invariant b[..i] == a[..i]
    {
      b[i] := a[i];
      i := i + 1;
    }
  }

  /** What the rest of a scan contributes after the descriptors `done`. */
  function Continue(done: seq<Desc>, rest: Result<seq<Desc>, LoadError>): Result<seq<Desc>, LoadError> {
    match rest
    case Ok(tail) => Ok(done + tail)
    case Err(e) => Err(e)
  }

  lemma ContinueStart(file: seq<byte>)
    requires |file| >= MIN_FILE_SIZE && ValidHeader(ParseHeader(file))
    ensures Load(file) == Continue([], Scan(file, FILE_HEADER_SIZE))
  {
    if Scan(file, FILE_HEADER_SIZE).Ok? {
      assert [] + Scan(file, FILE_HEADER_SIZE).value == Scan(file, FILE_HEADER_SIZE).value;
    }
  }

  /** One iteration of the record loop moves one descriptor from the scan to `done`. */
  lemma ContinueStep(file: seq<byte>, pos: nat, done: seq<Desc>)
    requires pos + RECORD_HEADER_SIZE < |file|
    requires pos + RECORD_HEADER_SIZE + Le32(file, pos + 8) <= |file|
    ensures var d := Desc(pos + RECORD_HEADER_SIZE, Le32(file, pos + 8));
      Continue(done, Scan(file, pos)) == Continue(done + [d], Scan(file, d.offset + d.len))
  {
    var d := Desc(pos + RECORD_HEADER_SIZE, Le32(file, pos + 8));
    if Scan(file, d.offset + d.len).Ok? {
      var tail := Scan(file, d.offset + d.len).value;
      assert done + ([d] + tail) == (done + [d]) + tail;
    }
  }

  /** `load_pcap`: on success `count` descriptors sit at the front of
      `packets`, equal to what `Load` yields, and the array has the capacity
      the doubling rule gives; on failure the error is the one `Load` reports. */
  method LoadPcap(file: seq<byte>) returns (r: Result<nat, LoadError>, packets: array<Desc>)
    ensures r.Ok? <==> Load(file).Ok?
    ensures r.Err? ==> r.error == Load(file).error
    ensures r.Ok? ==> r.value <= packets.Length && packets[..r.value] == Load(file).value
    ensures r.Ok? ==> packets.Length == Capacity(r.value)
  {
    packets := new Desc[0];
    if |file| < MIN_FILE_SIZE {
      return Err(TooShort), packets;
    }
    var check := CheckHeader(ParseHeader(file));
    if check.Err? {
      return Err(check.error), packets;
    }
    var count: nat := 0;
    var pos: nat := FILE_HEADER_SIZE;
    assert packets[..count] == [];
    ContinueStart(file);
    while pos + RECORD_HEADER_SIZE < |file|
      invariant fresh(packets)
      invariant count <= packets.Length == Capacity(count)
      invariant Load(file) == Continue(packets[..count], Scan(file, pos))
      decreases |file| - pos
    {
      var capLen := Le32(file, pos + 8);
      var data := pos + RECORD_HEADER_SIZE;
      if data + capLen > |file| {
        return Err(Truncated(pos)), packets;
      }
      ContinueStep(file, pos, packets[..count]);
      ghost var done := packets[..count];
      count := count + 1;
      CapacityGrowth(count);
      if IsPowerOfTwo(count) {
        packets := Grow(packets, count - 1, 2 * count);
      }
      packets[count - 1] := Desc(data, capLen);
      assert packets[..count] == done + [Desc(data, capLen)];
      pos := data + capLen;
    }
    return Ok(count), packets;
  }
}

=== FILE: pcap.dfy ===
/** The capture-file loader `load_pcap` of rdma-pktgen.c and tx.c (the two
    copies are identical), as a pure function from the file's bytes to the
    packet descriptors it yields. The format is the classic libpcap one:
    a 24-byte file header, then records made of a 16-byte record header and
    `cap_len` payload bytes. Pointers into the mapped file become offsets. */
module Pcap {
  import opened Bytes
  import opened Wrappers

  const FILE_HEADER_SIZE: nat := 24
  const RECORD_HEADER_SIZE: nat := 16
  const MIN_SNAP_LEN: nat := 64
  /** "at least one 64-byte packet": 24 + 16 + 64 bytes. */
  const MIN_FILE_SIZE: nat := FILE_HEADER_SIZE + RECORD_HEADER_SIZE + MIN_SNAP_LEN
  const MAGIC: nat := 0xa1b2c3d4
  /** Major version 2 in the low half-word, minor version 4 in the high one. */
  const VERSION: nat := 0x0004_0002
  const LINKTYPE_ETHERNET: nat := 1

  datatype FileHeader = FileHeader(
    magic: nat, version: nat, tzOffset: nat, tsAcc: nat, snapLen: nat, linkType: nat)

  /** A packet descriptor: where a record's payload starts in the file, and its `cap_len`. */
  datatype Desc = Desc(offset: nat, len: nat)

  /** Each failing `assert` of the loader, in the order the loader checks them. */
  datatype LoadError =
    | TooShort
    | BadMagic
    | BadVersion
    | BadTzOffset
    | BadTsAcc
    | SnapLenTooSmall
    | BadLinkType
    | Truncated(recordAt: nat)

  /** The six 32-bit header words, in file order. */
  function ParseHeader(file: seq<byte>): (h: FileHeader)
    requires |file| >= FILE_HEADER_SIZE
    ensures WordsFit(h)
  {
    FileHeader(Le32(file, 0), Le32(file, 4), Le32(file, 8),
               Le32(file, 12), Le32(file, 16), Le32(file, 20))
  }

  predicate ValidHeader(h: FileHeader) {
    && h.magic == MAGIC
    && h.version == VERSION
    && h.tzOffset == 0
    && h.tsAcc == 0
    && h.snapLen >= MIN_SNAP_LEN
    && h.linkType == LINKTYPE_ETHERNET
  }

  predicate IsHeaderError(e: LoadError) {
    e.BadMagic? || e.BadVersion? || e.BadTzOffset? || e.BadTsAcc? || e.SnapLenTooSmall? || e.BadLinkType?
  }

  /** The header checks, first failure wins. */
  function CheckHeader(h: FileHeader): (r: Result<(), LoadError>)
    ensures r.Ok? <==> ValidHeader(h)
    ensures r.Err? ==> IsHeaderError(r.error)
  {
    if h.magic != MAGIC then Err(BadMagic)
    else if h.version != VERSION then Err(BadVersion)
    else if h.tzOffset != 0 then Err(BadTzOffset)
    else if h.tsAcc != 0 then Err(BadTsAcc)
    else if h.snapLen < MIN_SNAP_LEN then Err(SnapLenTooSmall)
    else if h.linkType != LINKTYPE_ETHERNET then Err(BadLinkType)
    else Ok(())
  }

  /** The record loop: a header at `pos` is read only while `pos + 16 < |file|`;
      a payload running past the end of the file is fatal. */
  function Scan(file: seq<byte>, pos: nat): (r: Result<seq<Desc>, LoadError>)
    ensures r.Ok? ==> forall k :: 0 <= k < |r.value| ==>
      pos + RECORD_HEADER_SIZE <= r.value[k].offset && r.value[k].offset + r.value[k].len <= |file|
    ensures r.Err? ==> r.error.Truncated? && pos <= r.error.recordAt
    decreases |file| - pos
  {
    if pos + RECORD_HEADER_SIZE < |file| then
      var data := pos + RECORD_HEADER_SIZE;
      var capLen := Le32(file, pos + 8);
      if data + capLen > |file| then Err(Truncated(pos))
      else
        match Scan(file, data + capLen)
        case Err(e) => Err(e)
        case Ok(rest) => Ok([Desc(data, capLen)] + rest)
    else
      Ok([])
  }

  function Load(file: seq<byte>): (r: Result<seq<Desc>, LoadError>)
    ensures |file| < MIN_FILE_SIZE ==> r == Err(TooShort)
    ensures r.Ok? ==> |file| >= MIN_FILE_SIZE && ValidHeader(ParseHeader(file))
  {
    if |file| < MIN_FILE_SIZE then Err(TooShort)
    else
      var _ :- CheckHeader(ParseHeader(file));
      Scan(file, FILE_HEADER_SIZE)
  }

  // ---------------------------------------------------------------------
  // An independent definition of what a successful scan yields.

  /** `d` describes a record whose header was read and whose payload fits in the file. */
  predicate ReadRecord(file: seq<byte>, d: Desc) {
    && RECORD_HEADER_SIZE <= d.offset < |file|
    && d.len == Le32(file, d.offset - 8)
    && d.offset + d.len <= |file|
  }

  /** `ds` are consecutive records, the first of whose headers starts at `start`. */
  predicate Records(file: seq<byte>, start: nat, ds: seq<Desc>) {
    && (forall k :: 0 <= k < |ds| ==> ReadRecord(file, ds[k]))
    && (|ds| > 0 ==> ds[0].offset == start + RECORD_HEADER_SIZE)
    && (forall k :: 1 <= k < |ds| ==> ds[k].offset == ds[k - 1].offset + ds[k - 1].len + RECORD_HEADER_SIZE)
  }

  /** Where the header following the records `ds` would start. */
  function NextHeader(start: nat, ds: seq<Desc>): nat {
    if |ds| == 0 then start else ds[|ds| - 1].offset + ds[|ds| - 1].len
  }

  /** The records from `start` up to the first header that does not end strictly before EOF. */
  predicate Chain(file: seq<byte>, start: nat, ds: seq<Desc>) {
    Records(file, start, ds) && NextHeader(start, ds) + RECORD_HEADER_SIZE >= |file|
  }

  lemma RecordsTail(file: seq<byte>, start: nat, ds: seq<Desc>)
    requires |ds| > 0 && Records(file, start, ds)
    ensures Records(file, ds[0].offset + ds[0].len, ds[1..])
    ensures NextHeader(ds[0].offset + ds[0].len, ds[1..]) == NextHeader(start, ds)
  {
    var tl := ds[1..];
    forall k | 1 <= k < |tl|
      ensures tl[k].offset == tl[k - 1].offset + tl[k - 1].len + RECORD_HEADER_SIZE
    {
      assert tl[k] == ds[k + 1] && tl[k - 1] == ds[k];
    }
  }

  lemma RecordsCons(file: seq<byte>, start: nat, d: Desc, ds: seq<Desc>)
    requires ReadRecord(file, d) && d.offset == start + RECORD_HEADER_SIZE
    requires Records(file, d.offset + d.len, ds)
    ensures Records(file, start, [d] + ds)
    ensures NextHeader(start, [d] + ds) == NextHeader(d.offset + d.len, ds)
  {
    var all := [d] + ds;
    forall k | 1 <= k < |all|
      ensures all[k].offset == all[k - 1].offset + all[k - 1].len + RECORD_HEADER_SIZE
    {
      if k > 1 {
        assert all[k] == ds[k - 1] && all[k - 1] == ds[k - 2];
      }
    }
  }

  /** What the scan yields is the record chain from `pos`. */
  lemma {:induction false} ScanChainSound(file: seq<byte>, pos: nat)
    requires Scan(file, pos).Ok?
    ensures Chain(file, pos, Scan(file, pos).value)
    decreases |file| - pos
  {
    if pos + RECORD_HEADER_SIZE < |file| {
      var data := pos + RECORD_HEADER_SIZE;
      var capLen := Le32(file, pos + 8);
      var d := Desc(data, capLen);
      assert ReadRecord(file, d);
      var rest := Scan(file, data + capLen).value;
      assert Scan(file, pos).value == [d] + rest;
      ScanChainSound(file, data + capLen);
      RecordsCons(file, pos, d, rest);
    }
  }

  /** A chain from a header that ends before EOF starts with that header's record. */
  lemma ChainHead(file: seq<byte>, pos: nat, ds: seq<Desc>)
    requires Chain(file, pos, ds) && pos + RECORD_HEADER_SIZE < |file|
    ensures |ds| > 0 && ds[0] == Desc(pos + RECORD_HEADER_SIZE, Le32(file, pos + 8))
    ensures pos + RECORD_HEADER_SIZE + Le32(file, pos + 8) <= |file|
  {
    assert NextHeader(pos, []) == pos;
    assert ReadRecord(file, ds[0]);
  }

  /** The record chain from `pos` is what the scan yields. */
  lemma {:induction false} ScanChainComplete(file: seq<byte>, pos: nat, ds: seq<Desc>)
    requires Chain(file, pos, ds)
    ensures Scan(file, pos) == Ok(ds)
    decreases |file| - pos
  {
    if pos + RECORD_HEADER_SIZE < |file| {
      ChainHead(file, pos, ds);
      var data := pos + RECORD_HEADER_SIZE;
      var capLen := Le32(file, pos + 8);
      RecordsTail(file, pos, ds);
      ScanChainComplete(file, data + capLen, ds[1..]);
      assert Scan(file, data + capLen) == Ok(ds[1..]);
      assert [ds[0]] + ds[1..] == ds;
    }
  }

  /** The scan succeeds with `ds` exactly when `ds` is the record chain from `pos`. */
  lemma ScanIsChain(file: seq<byte>, pos: nat, ds: seq<Desc>)
    ensures Scan(file, pos) == Ok(ds) <==> Chain(file, pos, ds)
  {
    if Scan(file, pos) == Ok(ds) {
      ScanChainSound(file, pos);
    }
    if Chain(file, pos, ds) {
      ScanChainComplete(file, pos, ds);
    }
  }

  /** The scan fails only on a record whose header is read but whose payload
      runs past the end of the file, after a chain of good records. */
  lemma {:induction false} ScanFailsOnTruncation(file: seq<byte>, pos: nat)
    requires Scan(file, pos).Err?
    ensures Scan(file, pos).error.Truncated?
    ensures var p := Scan(file, pos).error.recordAt;
      && p + RECORD_HEADER_SIZE < |file|
      && p + RECORD_HEADER_SIZE + Le32(file, p + 8) > |file|
      && exists ds :: Records(file, pos, ds) && NextHeader(pos, ds) == p
    decreases |file| - pos
  {
    var data := pos + RECORD_HEADER_SIZE;
    var capLen := Le32(file, pos + 8);
    if data + capLen > |file| {
      assert Records(file, pos, []);
    } else {
      var d := Desc(data, capLen);
      ScanFailsOnTruncation(file, data + capLen);
      var p := Scan(file, pos).error.recordAt;
      var ds :| Records(file, data + capLen, ds) && NextHeader(data + capLen, ds) == p;
      RecordsCons(file, pos, d, ds);
    }
  }

  // ---------------------------------------------------------------------
  // What the loader promises.

  /** A file loads as `ds` exactly when it is long enough, its header is
      valid, and `ds` is the record chain that starts right after the header. */
  lemma LoadIsChain(file: seq<byte>, ds: seq<Desc>)
    ensures Load(file) == Ok(ds) <==>
      && |file| >= MIN_FILE_SIZE
      && ValidHeader(ParseHeader(file))
      && Chain(file, FILE_HEADER_SIZE, ds)
  {
    if |file| >= MIN_FILE_SIZE {
      ScanIsChain(file, FILE_HEADER_SIZE, ds);
    }
  }

  /** A successful load yields at least one descriptor, each inside the file,
      and leaves at most 16 trailing bytes unread. */
  lemma LoadedDescriptors(file: seq<byte>)
    requires Load(file).Ok?
    ensures var ds := Load(file).value;
      && |ds| >= 1
      && ds[0].offset == FILE_HEADER_SIZE + RECORD_HEADER_SIZE
      && (forall k :: 0 <= k < |ds| ==> ds[k].offset + ds[k].len <= |file|)
      && |file| - NextHeader(FILE_HEADER_SIZE, ds) <= RECORD_HEADER_SIZE
  {
    var ds := Load(file).value;
    LoadIsChain(file, ds);
    assert |ds| != 0 by {
      assert NextHeader(FILE_HEADER_SIZE, []) + RECORD_HEADER_SIZE < |file|;
    }
    assert ReadRecord(file, ds[0]);
  }

  /** A bad header is reported before any record is read: the outcome depends
      on the first 24 bytes only. */
  lemma HeaderRejectedFirst(file: seq<byte>, other: seq<byte>)
    requires |file| >= MIN_FILE_SIZE && |other| >= MIN_FILE_SIZE
    requires file[..FILE_HEADER_SIZE] == other[..FILE_HEADER_SIZE]
    requires !ValidHeader(ParseHeader(file))
    ensures Load(file).Err? && IsHeaderError(Load(file).error)
    ensures Load(file) == Load(other)
  {
    forall at | at in {0, 4, 8, 12, 16, 20}
      ensures Le32(file, at) == Le32(other, at)
    {
      assert file[at..at + 4] == file[..FILE_HEADER_SIZE][at..at + 4];
      assert other[at..at + 4] == other[..FILE_HEADER_SIZE][at..at + 4];
      Le32Local(file, other, at, at);
    }
    assert ParseHeader(file) == ParseHeader(other);
  }

  /** A payload running past the end of the file is fatal, never skipped. */
  lemma TruncatedRecordRejected(file: seq<byte>, ds: seq<Desc>)
    requires |file| >= MIN_FILE_SIZE && ValidHeader(ParseHeader(file))
    requires Records(file, FILE_HEADER_SIZE, ds)
    requires NextHeader(FILE_HEADER_SIZE, ds) + RECORD_HEADER_SIZE < |file|
    requires NextHeader(FILE_HEADER_SIZE, ds) + RECORD_HEADER_SIZE
             + Le32(file, NextHeader(FILE_HEADER_SIZE, ds) + 8) > |file|
    ensures Load(file) == Err(Truncated(NextHeader(FILE_HEADER_SIZE, ds)))
  {
    TruncatedScan(file, FILE_HEADER_SIZE, ds);
  }

  lemma {:induction false} TruncatedScan(file: seq<byte>, pos: nat, ds: seq<Desc>)
    requires Records(file, pos, ds)
    requires NextHeader(pos, ds) + RECORD_HEADER_SIZE < |file|
    requires NextHeader(pos, ds) + RECORD_HEADER_SIZE + Le32(file, NextHeader(pos, ds) + 8) > |file|
    ensures Scan(file, pos) == Err(Truncated(NextHeader(pos, ds)))
    decreases |ds|
  {
    if |ds| > 0 {
      RecordsTail(file, pos, ds);
      TruncatedScan(file, ds[0].offset + ds[0].len, ds[1..]);
    }
  }

  /** A record header ending exactly at EOF is not read: appending one (for
      instance a zero-length record) to a file whose last record ends at EOF
      leaves the loaded descriptors unchanged. */
  lemma HeaderAtEofIgnored(file: seq<byte>, tail: seq<byte>)
    requires Load(file).Ok?
    requires NextHeader(FILE_HEADER_SIZE, Load(file).value) == |file|
    requires |tail| == RECORD_HEADER_SIZE
    ensures Load(file + tail) == Load(file)
  {
    var ds := Load(file).value;
    var big := file + tail;
    LoadIsChain(file, ds);
    assert big[..FILE_HEADER_SIZE] == file[..FILE_HEADER_SIZE];
    forall at | at in {0, 4, 8, 12, 16, 20}
      ensures Le32(file, at) == Le32(big, at)
    {
      assert file[at..at + 4] == big[at..at + 4];
      Le32Local(file, big, at, at);
    }
    forall k | 0 <= k < |ds|
      ensures ReadRecord(big, ds[k])
    {
      assert ReadRecord(file, ds[k]);
      var at := ds[k].offset - 8;
      assert file[at..at + 4] == big[at..at + 4];
      Le32Local(file, big, at, at);
    }
    assert Chain(big, FILE_HEADER_SIZE, ds);
    LoadIsChain(big, ds);
  }

  // ---------------------------------------------------------------------
  // The writer side of the format, as the partner of the loader.

  datatype Record = Record(tsSec: nat, tsUsec: nat, wireLen: nat, payload: seq<byte>)

  predicate WordsFit(h: FileHeader) {
    && h.magic < WORD_LIMIT && h.version < WORD_LIMIT && h.tzOffset < WORD_LIMIT
    && h.tsAcc < WORD_LIMIT && h.snapLen < WORD_LIMIT && h.linkType < WORD_LIMIT
  }

  predicate RecordFits(r: Record) {
    r.tsSec < WORD_LIMIT && r.tsUsec < WORD_LIMIT && r.wireLen < WORD_LIMIT && |r.payload| < WORD_LIMIT
  }

  function EncodeHeader(h: FileHeader): (s: seq<byte>)
    requires WordsFit(h)
    ensures |s| == FILE_HEADER_SIZE
  {
    EncodeLe32(h.magic) + EncodeLe32(h.version) + EncodeLe32(h.tzOffset)
    + EncodeLe32(h.tsAcc) + EncodeLe32(h.snapLen) + EncodeLe32(h.linkType)
  }

  function EncodeRecord(r: Record): (s: seq<byte>)
    requires RecordFits(r)
    ensures |s| == RECORD_HEADER_SIZE + |r.payload|
  {
    EncodeLe32(r.tsSec) + EncodeLe32(r.tsUsec) + EncodeLe32(|r.payload|) + EncodeLe32(r.wireLen) + r.payload
  }

  function EncodeRecords(rs: seq<Record>): seq<byte>
    requires forall k :: 0 <= k < |rs| ==> RecordFits(rs[k])
  {
    if |rs| == 0 then [] else EncodeRecord(rs[0]) + EncodeRecords(rs[1..])
  }

  function EncodeFile(h: FileHeader, rs: seq<Record>): seq<byte>
    requires WordsFit(h)
    requires forall k :: 0 <= k < |rs| ==> RecordFits(rs[k])
  {
    EncodeHeader(h) + EncodeRecords(rs)
  }

  /** The descriptors of records `rs` written from offset `at` on. */
  function Layout(at: nat, rs: seq<Record>): (ds: seq<Desc>)
    ensures |ds| == |rs|
    decreases |rs|
  {
    if |rs| == 0 then []
    else [Desc(at + RECORD_HEADER_SIZE, |rs[0].payload|)]
         + Layout(at + RECORD_HEADER_SIZE + |rs[0].payload|, rs[1..])
  }

  lemma HeaderRoundTrip(h: FileHeader, rest: seq<byte>)
    requires WordsFit(h)
    ensures ParseHeader(EncodeHeader(h) + rest) == h
  {
    var f := EncodeHeader(h) + rest;
    assert f[0..4] == EncodeLe32(h.magic);
    assert f[4..8] == EncodeLe32(h.version);
    assert f[8..12] == EncodeLe32(h.tzOffset);
    assert f[12..16] == EncodeLe32(h.tsAcc);
    assert f[16..20] == EncodeLe32(h.snapLen);
    assert f[20..24] == EncodeLe32(h.linkType);
    Le32OfEncoded(f, 0, h.magic);
    Le32OfEncoded(f, 4, h.version);
    Le32OfEncoded(f, 8, h.tzOffset);
    Le32OfEncoded(f, 12, h.tsAcc);
    Le32OfEncoded(f, 16, h.snapLen);
    Le32OfEncoded(f, 20, h.linkType);
  }

  /** A prefix of a sequence splits into prefixes of its two parts. */
  lemma PrefixSplit(a: seq<byte>, b: seq<byte>, s: seq<byte>)
    requires a + b <= s
    ensures a <= s && b <= s[|a|..]
  {
    assert a == (a + b)[..|a|];
    assert b == (a + b)[|a|..|a| + |b|];
  }

  /** An encoded record found at `at` in a file is read back as one descriptor,
      provided its header ends before EOF. */
  lemma RecordHead(f: seq<byte>, at: nat, r: Record)
    requires RecordFits(r)
    requires at <= |f| && EncodeRecord(r) <= f[at..]
    requires at + RECORD_HEADER_SIZE < |f|
    ensures ReadRecord(f, Desc(at + RECORD_HEADER_SIZE, |r.payload|))
  {
    var e := EncodeRecord(r);
    assert e[8..12] == EncodeLe32(|r.payload|);
    assert f[at + 8..at + 12] == e[8..12];
    Le32OfEncoded(f, at + 8, |r.payload|);
  }

  /** Encoded records found at `at` in a file are read back as the layout's
      descriptors; the header after them starts where the encoding ends. */
  lemma {:induction false} RecordsRoundTrip(f: seq<byte>, at: nat, rs: seq<Record>)
    requires forall k :: 0 <= k < |rs| ==> RecordFits(rs[k])
    requires at <= |f| && EncodeRecords(rs) <= f[at..]
    requires |rs| > 0 && at + |EncodeRecords(rs)| == |f| ==> |rs[|rs| - 1].payload| > 0
    ensures Records(f, at, Layout(at, rs))
    ensures NextHeader(at, Layout(at, rs)) == at + |EncodeRecords(rs)|
    decreases |rs|
  {
    if |rs| > 0 {
      var r := rs[0];
      var e := EncodeRecord(r);
      var rest := EncodeRecords(rs[1..]);
      var next := at + |e|;
      PrefixSplit(e, rest, f[at..]);
      assert f[at..][|e|..] == f[next..];
      RecordsRoundTrip(f, next, rs[1..]);
      assert at + RECORD_HEADER_SIZE < |f| by {
        if |rs| > 1 {
          assert |rest| >= RECORD_HEADER_SIZE;
        }
      }
      var d := Desc(at + RECORD_HEADER_SIZE, |r.payload|);
      assert Layout(at, rs) == [d] + Layout(next, rs[1..]);
      RecordHead(f, at, r);
      RecordsCons(f, at, d, Layout(next, rs[1..]));
    } else {
      assert Records(f, at, []);
    }
  }

  /** Loading a written file gives back one descriptor per record, in order,
      each spanning that record's payload. The last payload must be non-empty:
      a zero-length final record ends its header exactly at EOF and is not read. */
  lemma LoadRoundTrip(h: FileHeader, rs: seq<Record>)
    requires WordsFit(h) && ValidHeader(h)
    requires forall k :: 0 <= k < |rs| ==> RecordFits(rs[k])
    requires |rs| > 0 ==> |rs[|rs| - 1].payload| > 0
    requires |EncodeFile(h, rs)| >= MIN_FILE_SIZE
    ensures Load(EncodeFile(h, rs)) == Ok(Layout(FILE_HEADER_SIZE, rs))
  {
    var f := EncodeFile(h, rs);
    HeaderRoundTrip(h, EncodeRecords(rs));
    assert f[FILE_HEADER_SIZE..] == EncodeRecords(rs);
    RecordsRoundTrip(f, FILE_HEADER_SIZE, rs);
    LoadIsChain(f, Layout(FILE_HEADER_SIZE, rs));
  }
}

=== FILE: rx.dfy ===
/** The receive engine of rx.c: RXNB batches of RXSZ receive requests, each
    addressing its own PKTSZ-byte buffer of one registered array, posted
    before the sniffer flow is installed; then a busy poll loop that
    re-posts a whole batch when the id of a poll's last completion differs
    from the one remembered from the previous poll. The hardware fills the
    posted buffers in posting order (FIFO), the order the rule relies on. */
module Rx {
  import opened Wrappers
  import opened Seqs
  import opened Verbs
  import opened Throughput
  import Corpus

  const PKTSZ: nat := 9216
  const RXSZ: nat := 1024
  const RXNB: nat := 2
  const RX: Pipeline := Pipeline(RXNB, RXSZ)
  /** The port the sniffer flow is attached to. */
  const SNIFFER_PORT: nat := 1

  datatype RecvWr = RecvWr(wrId: nat, addr: nat, length: nat, next: Option<nat>)

  datatype RxError = Usage | PollFailed | QueueFull | BadPoll(nb: int) | FlowRefused

  /** `argc != 2` prints the usage line and returns -1. */
  function CheckArgs(argc: int): (r: Result<(), RxError>)
    ensures r.Ok? <==> argc == 2
    ensures r.Err? ==> r.error == Usage && ExitFor(r.error) == Corpus.Returned(-1)
  {
    if argc != 2 then Err(Usage) else Ok(())
  }

  /** How the receiver ends on an error: `return -1` after the usage line;
      every other error is a failed `assert`, which aborts. */
  function ExitFor(e: RxError): (x: Corpus.Exit)
    ensures x == Corpus.Returned(-1) <==> e == Usage
    ensures e != Usage ==> x == Corpus.Aborted
  {
    if e == Usage then Corpus.Returned(-1) else Corpus.Aborted
  }

  /** `sizeof(packets)` for `char packets[depth][size][pktSize]`. */
  function RegionSize(p: Pipeline, pktSize: nat): nat {
    p.depth * p.size * pktSize
  }

  /** Offset of `packets[i][j]` in the array. */
  function BufferOffset(p: Pipeline, pktSize: nat, i: nat, j: nat): nat {
    (i * p.size + j) * pktSize
  }

  lemma BufferInside(p: Pipeline, pktSize: nat, i: nat, j: nat)
    requires i < p.depth && j < p.size
    ensures BufferOffset(p, pktSize, i, j) + pktSize <= RegionSize(p, pktSize)
  {
    var k := i * p.size + j;
    assert k + 1 <= p.depth * p.size by {
      assert i * p.size + p.size == (i + 1) * p.size;
      MulMono(i + 1, p.depth, p.size);
    }
    MulMono(k + 1, p.depth * p.size, pktSize);
    assert (k + 1) * pktSize == k * pktSize + pktSize;
  }

  /** Receive request `j` of batch `i`: it carries the batch id, addresses
      its own buffer inside the registered region, and links to `j + 1`
      except for the last request of the batch, which ends the chain. */
  function RecvRequest(p: Pipeline, pktSize: nat, i: nat, j: nat): (wr: RecvWr)
    requires i < p.depth && j < p.size
    ensures wr.wrId == i && wr.length == pktSize
    ensures wr.addr + wr.length <= RegionSize(p, pktSize)
    ensures wr.next.Some? <==> j + 1 < p.size
    ensures wr.next.Some? ==> wr.next.value == j + 1
  {
    BufferInside(p, pktSize, i, j);
    RecvWr(i, BufferOffset(p, pktSize, i, j), pktSize, if j + 1 < p.size then Some(j + 1) else None)
  }

  /** Distinct (batch, request) pairs have distinct buffer numbers. */
  lemma BufferNumbersDistinct(size: nat, i1: nat, j1: nat, i2: nat, j2: nat)
    requires j1 < size && j2 < size && (i1, j1) != (i2, j2)
    ensures i1 * size + j1 != i2 * size + j2
  {
    if i1 < i2 {
      assert i1 * size + size <= i2 * size by {
        assert i1 * size + size == (i1 + 1) * size;
      }
    } else if i2 < i1 {
      assert i2 * size + size <= i1 * size by {
        assert i2 * size + size == (i2 + 1) * size;
      }
    }
  }

  lemma ScaledApart(k1: nat, k2: nat, w: nat)
    requires k1 < k2
    ensures k1 * w + w <= k2 * w
  {
    assert k1 * w + w == (k1 + 1) * w;
  }

  /** No two receive requests share a byte of buffer. */
  lemma BuffersDisjoint(p: Pipeline, pktSize: nat, i1: nat, j1: nat, i2: nat, j2: nat)
    requires i1 < p.depth && j1 < p.size && i2 < p.depth && j2 < p.size
    requires (i1, j1) != (i2, j2)
    ensures var a1, a2 := RecvRequest(p, pktSize, i1, j1).addr, RecvRequest(p, pktSize, i2, j2).addr;
      a1 + pktSize <= a2 || a2 + pktSize <= a1
  {
    var k1, k2 := i1 * p.size + j1, i2 * p.size + j2;
    BufferNumbersDistinct(p.size, i1, j1, i2, j2);
    if k1 < k2 {
      ScaledApart(k1, k2, pktSize);
    } else {
      ScaledApart(k2, k1, pktSize);
    }
  }

  // ---------------------------------------------------------------------
  // Start-up order.

  datatype RxAction = PostRecv(slot: nat) | InstallSniffer(port: nat)

  /** The posts of "fill the pipeline": batch 0 first, then batch 1, and so on. */
  function FillPosts(n: nat): (r: seq<RxAction>)
    ensures |r| == n && forall k :: 0 <= k < n ==> r[k] == PostRecv(k)
  {
    seq(n, k requires 0 <= k => PostRecv(k))
  }

  /** "fill the pipeline", then install the sniffer flow: the flow is
      installed once, after every post. */
  function Startup(p: Pipeline): (r: seq<RxAction>)
    ensures |r| == p.depth + 1 && r[p.depth] == InstallSniffer(SNIFFER_PORT)
    ensures forall a :: 0 <= a < |r| && r[a].InstallSniffer? ==> a == p.depth
  {
    FillPosts(p.depth) + [InstallSniffer(SNIFFER_PORT)]
  }

  /** The receive side during start-up: whether the sniffer flow exists yet,
      and how many receive requests were pending when it was installed. */
  datatype Boot = Boot(state: RxState, snifferOn: bool, pendingAtInstall: nat)

  /** Nothing posted, no flow, `last_id = 0`. */
  function BootStart(counter: Counter): Boot {
    Boot(RxState(0, [], [], counter), false, 0)
  }

  /** One start-up action: `ibv_post_recv(qp, wr[k], 0)` adds batch k's
      requests to the receive queue, refused if that overflows `max_recv_wr`;
      `ibv_create_flow` starts the mirroring of traffic, or is refused by the
      device (`flowGranted` false), which aborts. */
  function Perform(p: Pipeline, b: Boot, a: RxAction, flowGranted: bool): (r: Result<Boot, RxError>)
    ensures a.PostRecv? ==> (r.Ok? <==> |b.state.pending| + p.size <= RxCaps(p).maxRecvWr)
    ensures a.PostRecv? && r.Err? ==> r.error == QueueFull
    ensures a.PostRecv? && r.Ok? ==> r.value.state.pending == b.state.pending + Repeat(a.slot, p.size)
    ensures a.PostRecv? && r.Ok? ==> r.value.state.posts == b.state.posts + [a.slot]
    ensures a.InstallSniffer? ==> (r.Ok? <==> flowGranted)
    ensures a.InstallSniffer? && r.Err? ==> r.error == FlowRefused
    ensures a.InstallSniffer? && r.Ok? ==>
      r.value.state == b.state && r.value.snifferOn && r.value.pendingAtInstall == |b.state.pending|
  {
    match a
    case PostRecv(k) =>
      if |b.state.pending| + p.size > RxCaps(p).maxRecvWr then Err(QueueFull)
      else Ok(b.(state := b.state.(pending := b.state.pending + Repeat(k, p.size), posts := b.state.posts + [k])))
    case InstallSniffer(_) =>
      if flowGranted then Ok(b.(snifferOn := true, pendingAtInstall := |b.state.pending|))
      else Err(FlowRefused)
  }

  /** The actions in order; the first refused one is fatal. */
  function PerformAll(p: Pipeline, b: Boot, acts: seq<RxAction>, flowGranted: bool): Result<Boot, RxError>
    decreases |acts|
  {
    if |acts| == 0 then Ok(b)
    else
      match PerformAll(p, b, acts[..|acts| - 1], flowGranted)
      case Err(e) => Err(e)
      case Ok(b') => Perform(p, b', acts[|acts| - 1], flowGranted)
  }

  /** The requests of batches 0 .. n-1, each batch `size` requests, in posting order. */
  function Blocks(size: nat, n: nat): (r: seq<nat>)
    ensures |r| == n * size
  {
    if n == 0 then [] else Blocks(size, n - 1) + Repeat(n - 1, size)
  }

  /** Posting the first n batches succeeds, logs them in order, and leaves
      their requests pending in posting order; the flow is not there yet. */
  lemma {:induction false} FillPostsPending(p: Pipeline, counter: Counter, n: nat, flowGranted: bool)
    requires p.Valid() && n <= p.depth
    ensures PerformAll(p, BootStart(counter), FillPosts(n), flowGranted)
         == Ok(Boot(RxState(0, Blocks(p.size, n), Range(n), counter), false, 0))
    decreases n
  {
    if n > 0 {
      FillPostsPending(p, counter, n - 1, flowGranted);
      assert FillPosts(n)[..n - 1] == FillPosts(n - 1);
      assert Range(n) == Range(n - 1) + [n - 1];
      assert (n - 1) * p.size + p.size == n * p.size;
      MulMono(n, p.depth, p.size);
    }
  }

  /** Start-up as rx.c runs it: every post is accepted, so it fails only when
      the device refuses the sniffer flow. When the flow is installed every
      batch is already on the receive queue, so the queue holds
      `depth * size` buffers, its full capacity; with two batches the result
      is `Primed`. */
  lemma StartupFills(p: Pipeline, counter: Counter, flowGranted: bool)
    requires p.Valid()
    ensures PerformAll(p, BootStart(counter), Startup(p), flowGranted).Ok? <==> flowGranted
    ensures !flowGranted ==> PerformAll(p, BootStart(counter), Startup(p), flowGranted) == Err(FlowRefused)
    ensures flowGranted ==> var b := PerformAll(p, BootStart(counter), Startup(p), flowGranted).value;
      && b.snifferOn
      && b.pendingAtInstall == p.depth * p.size == RxCaps(p).maxRecvWr
      && b.state == RxState(0, Blocks(p.size, p.depth), Range(p.depth), counter)
    ensures flowGranted && p.depth == 2 ==>
      PerformAll(p, BootStart(counter), Startup(p), flowGranted).value.state == Primed(p, counter)
  {
    FillPostsPending(p, counter, p.depth, flowGranted);
    assert Startup(p)[..p.depth] == FillPosts(p.depth);
    if p.depth == 2 {
      assert Blocks(p.size, 1) == Repeat(0, p.size);
      assert Range(2) == [0, 1];
    }
  }

  // ---------------------------------------------------------------------
  // The busy poll.

  datatype PollReturn = Polled(ids: seq<nat>) | PollErr

  /** `while (0 == (nb = ibv_poll_cq(cq, max, wc)));` over the successive
      returns of the poll: empty returns are retried, an error is fatal.
      `Err(BadPoll(0))` stands for a loop still spinning at the end of the
      given returns. On success: the poll's completions, and its position. */
  function AwaitCompletions(polls: seq<PollReturn>, max: nat): (r: Result<(seq<nat>, nat), RxError>)
    requires forall k :: 0 <= k < |polls| && polls[k].Polled? ==> |polls[k].ids| <= max
    ensures r.Ok? ==> 1 <= |r.value.0| <= max
    ensures r.Ok? ==> r.value.1 < |polls| && polls[r.value.1] == Polled(r.value.0)
    ensures r.Ok? ==> forall k :: 0 <= k < r.value.1 ==> polls[k] == Polled([])
    ensures r.Err? ==> r.error == PollFailed || r.error == BadPoll(0)
    ensures r == Err(PollFailed) <==> exists e :: 0 <= e < |polls| && polls[e] == PollErr &&
                                        forall k :: 0 <= k < e ==> polls[k] == Polled([])
    decreases |polls|
  {
    if |polls| == 0 then Err(BadPoll(0))
    else
      match polls[0]
      case PollErr => Err(PollFailed)
      case Polled(ids) =>
        if |ids| > 0 then Ok((ids, 0))
        else
          var r := AwaitCompletions(polls[1..], max);
          if r.Err? && r.error == PollFailed then
            assert forall e :: 0 <= e < |polls[1..]| && polls[1..][e] == PollErr && (forall k :: 0 <= k < e ==> polls[1..][k] == Polled([])) ==>
              polls[e + 1] == PollErr && forall k :: 0 <= k < e + 1 ==> polls[k] == Polled([]);
            r
          else if r.Err? then
            assert forall e :: 1 <= e < |polls| && polls[e] == PollErr ==> polls[1..][e - 1] == PollErr;
            r
          else Ok((r.value.0, r.value.1 + 1))
  }

  // ---------------------------------------------------------------------
  // The batch-boundary rule.

  /** rx.c's rule on the wr_ids of one poll: if the last one differs from
      `lastId`, batch `lastId` is re-posted and the last id remembered;
      otherwise nothing happens. */
  function LastIdRule(lastId: nat, wc: seq<nat>): (r: (nat, Option<nat>))
    requires |wc| >= 1
    ensures r.1.Some? <==> wc[|wc| - 1] != lastId
    ensures r.1.Some? ==> r.1.value == lastId
    ensures r.0 == wc[|wc| - 1]
  {
    var id := wc[|wc| - 1];
    if id != lastId then (id, Some(lastId)) else (lastId, None)
  }

  /** `pending`: ids of the posted receive requests whose completion has not
      been polled, in posting order; `posts`: every `ibv_post_recv`, in order. */
  datatype RxState = RxState(lastId: nat, pending: seq<nat>, posts: seq<nat>, counter: Counter)

  /** One poll that returns `nb` completions. The hardware completes requests in
      posting order, so they are the first `nb` pending ones; returning more
      than are pending, or none, is outside the hardware contract. A re-post
      that would overflow the receive queue's `max_recv_wr` is refused. */
  function RxPoll(p: Pipeline, s: RxState, nb: int, nextRefresh: nat): (r: Result<RxState, RxError>)
    ensures nb < 1 || nb > |s.pending| ==> r == Err(BadPoll(nb))
    ensures r.Err? && 1 <= nb <= |s.pending| ==> r.error == QueueFull
    ensures r.Ok? ==> r.value.lastId == s.pending[nb - 1]
    ensures r.Ok? ==> |s.pending| - nb <= |r.value.pending| && r.value.pending[..|s.pending| - nb] == s.pending[nb..]
    ensures r.Ok? ==>
      r.value.pending == s.pending[nb..] + (if s.pending[nb - 1] != s.lastId then Repeat(s.lastId, p.size) else [])
    ensures r.Ok? ==> r.value.counter == Account(s.counter, nb, nextRefresh).0
    ensures r.Ok? && s.pending[nb - 1] == s.lastId ==> r.value.posts == s.posts
    ensures r.Ok? && s.pending[nb - 1] != s.lastId ==> r.value.posts == s.posts + [s.lastId]
  {
    if nb < 1 || nb > |s.pending| then Err(BadPoll(nb))
    else
      var wc := s.pending[..nb];
      var rest := s.pending[nb..];
      var counter := Account(s.counter, nb, nextRefresh).0;
      match LastIdRule(s.lastId, wc)
      case (id, None) => Ok(RxState(id, rest, s.posts, counter))
      case (id, Some(slot)) =>
        if |rest| + p.size > RxCaps(p).maxRecvWr then Err(QueueFull)
        else Ok(RxState(id, rest + Repeat(slot, p.size), s.posts + [slot], counter))
  }

  /** Completions only ever carry ids of posted requests, so `last_id` stays a
      valid batch index for any pipeline depth. */
  lemma LastIdInRange(p: Pipeline, s: RxState, nb: int, nextRefresh: nat)
    requires s.lastId < p.depth
    requires forall k :: 0 <= k < |s.pending| ==> s.pending[k] < p.depth
    requires RxPoll(p, s, nb, nextRefresh).Ok?
    ensures var s' := RxPoll(p, s, nb, nextRefresh).value;
      s'.lastId < p.depth && forall k :: 0 <= k < |s'.pending| ==> s'.pending[k] < p.depth
  {
  }

  /** The shape of the pending requests with two slots under FIFO completion:
      the tail of the remembered batch, then all of the other batch. */
  predicate FifoShape(p: Pipeline, s: RxState) {
    && p.Valid() && p.depth == 2 && s.lastId < 2
    && p.size <= |s.pending| <= 2 * p.size
    && s.pending == Repeat(s.lastId, |s.pending| - p.size) + Repeat(1 - s.lastId, p.size)
  }

  /** The state after priming with two slots: both batches pending, batch 0
      first, and `last_id = 0`; it has the two-slot shape. */
  function Primed(p: Pipeline, counter: Counter): (r: RxState)
    ensures r.lastId == 0 && r.posts == [0, 1] && |r.pending| == 2 * p.size
    ensures p.Valid() && p.depth == 2 ==> FifoShape(p, r)
  {
    RxState(0, Repeat(0, p.size) + Repeat(1, p.size), [0, 1], counter)
  }

  /** With two slots and FIFO completion each poll succeeds and keeps the
      shape. A batch is re-posted exactly when the poll's last id differs from
      `last_id`, at most once per poll, and only when none of its requests is
      still pending, so its buffers are no longer in use. After every poll at
      least `size` requests are posted and not yet polled, never more than
      the receive queue holds, and no poll can return more completions than
      the completion queue holds. */
  lemma FifoPollSafe(p: Pipeline, s: RxState, nb: int, nextRefresh: nat)
    requires FifoShape(p, s)
    requires 1 <= nb <= |s.pending|
    ensures nb <= RxCaps(p).cqe
    ensures RxPoll(p, s, nb, nextRefresh).Ok?
    ensures var s' := RxPoll(p, s, nb, nextRefresh).value;
      && FifoShape(p, s')
      && (s'.posts != s.posts <==> s.pending[nb - 1] != s.lastId)
      && (s'.posts != s.posts ==> s'.posts == s.posts + [s.lastId])
      && (s'.posts != s.posts ==> s.lastId !in s.pending[nb..])
      && p.size <= |s'.pending| <= RxCaps(p).maxRecvWr
  {
    var L, O := s.lastId, 1 - s.lastId;
    var m := |s.pending| - p.size;
    var rest := s.pending[nb..];
    assert s.pending[nb - 1] == (if nb - 1 < m then L else O);
    if nb <= m {
      assert rest == Repeat(L, m - nb) + Repeat(O, p.size);
    } else {
      assert rest == Repeat(O, p.size - (nb - m));
      var s' := RxPoll(p, s, nb, nextRefresh).value;
      assert s'.pending == Repeat(O, p.size - (nb - m)) + Repeat(L, p.size);
      assert 1 - O == L;
      assert s'.posts != s.posts;
    }
  }

  /** The example of a capture start: a poll returning the whole of batch 0
      re-posts nothing; the next one, ending with a completion of batch 1,
      re-posts batch 0 exactly once and leaves batch 1 alone. */
  lemma BoundaryExample()
    ensures var s0 := Primed(RX, ADAPTIVE_START);
      && RxPoll(RX, s0, RXSZ, 1).Ok?
      && RxPoll(RX, s0, RXSZ, 1).value.posts == [0, 1]
      && RxPoll(RX, RxPoll(RX, s0, RXSZ, 1).value, RXSZ, 1).Ok?
      && RxPoll(RX, RxPoll(RX, s0, RXSZ, 1).value, RXSZ, 1).value.posts == [0, 1, 0]
  {
    var s0 := Primed(RX, ADAPTIVE_START);
    FifoPollSafe(RX, s0, RXSZ, 1);
    assert s0.pending[RXSZ - 1] == 0;
    var s1 := RxPoll(RX, s0, RXSZ, 1).value;
    assert s1.pending == Repeat(1, RXSZ);
    FifoPollSafe(RX, s1, RXSZ, 1);
    assert s1.pending[RXSZ - 1] == 1;
  }

  /** Why the rule needs exactly two batches: with three batches of one
      request, a poll that returns all three crosses two batch boundaries but
      re-posts only batch `last_id`, leaving a single request on the receive
      queue. Batch 1 is now neither pending nor remembered (`Lost`), so it is
      never posted again (`WiderPipelineLosesBatch`); batch 2 is remembered
      and comes back with the next poll. */
  lemma WiderPipelineStarves()
    ensures var p := Pipeline(3, 1);
      RxPoll(p, RxState(0, [0, 1, 2], [0, 1, 2], ADAPTIVE_START), 3, 1)
        == Ok(RxState(2, [0], [0, 1, 2, 0], ADAPTIVE_START))
    ensures Lost(RxState(2, [0], [0, 1, 2, 0], ADAPTIVE_START), 1)
    ensures RxPoll(Pipeline(3, 1), RxState(2, [0], [0, 1, 2, 0], ADAPTIVE_START), 1, 1)
        == Ok(RxState(0, [2], [0, 1, 2, 0, 2], ADAPTIVE_START))
  {
    WiderPipelineNextPoll();
    var p := Pipeline(3, 1);
    var s := RxState(0, [0, 1, 2], [0, 1, 2], ADAPTIVE_START);
    assert s.pending[..3] == [0, 1, 2] && s.pending[3..] == [];
    assert LastIdRule(0, [0, 1, 2]) == (2, Some(0));
    assert Account(ADAPTIVE_START, 3, 1).0 == ADAPTIVE_START;
    assert RxCaps(p).maxRecvWr == 3;
    assert s.pending[3..] + Repeat(0, 1) == [0];
    var r := RxPoll(p, s, 3, 1);
    assert r.Ok?;
    assert r.value.lastId == 2;
    assert r.value.pending == [0];
    assert r.value.posts == [0, 1, 2, 0];
    assert r.value.counter == ADAPTIVE_START;
  }

  /** The poll after `WiderPipelineStarves`: it ends in batch 0, so the
      remembered batch 2 is re-posted. */
  lemma WiderPipelineNextPoll()
    ensures RxPoll(Pipeline(3, 1), RxState(2, [0], [0, 1, 2, 0], ADAPTIVE_START), 1, 1)
        == Ok(RxState(0, [2], [0, 1, 2, 0, 2], ADAPTIVE_START))
  {
    var p := Pipeline(3, 1);
    var s := RxState(2, [0], [0, 1, 2, 0], ADAPTIVE_START);
    assert s.pending[..1] == [0] && s.pending[1..] == [];
    assert LastIdRule(2, [0]) == (0, Some(2));
    assert Account(ADAPTIVE_START, 1, 1).0 == ADAPTIVE_START;
    assert RxCaps(p).maxRecvWr == 3;
    assert s.pending[1..] + Repeat(2, 1) == [2];
    var r := RxPoll(p, s, 1, 1);
    assert r.Ok?;
    assert r.value.lastId == 0;
    assert r.value.pending == [2];
    assert r.value.posts == [0, 1, 2, 0, 2];
    assert r.value.counter == ADAPTIVE_START;
  }

  // ---------------------------------------------------------------------
  // Whole runs.

  datatype RxEvent = Poll(nb: int, nextRefresh: nat)

  /** A run of polls: posts are only appended, at most one per poll. */
  function RunRx(p: Pipeline, s: RxState, es: seq<RxEvent>): (r: Result<RxState, RxError>)
    ensures r.Ok? ==> s.posts <= r.value.posts && |r.value.posts| <= |s.posts| + |es|
    decreases |es|
  {
    if |es| == 0 then Ok(s)
    else
      match RxPoll(p, s, es[0].nb, es[0].nextRefresh)
      case Err(e) => Err(e)
      case Ok(s') => RunRx(p, s', es[1..])
  }

  /** Batch `b` has no request on the receive queue and is not the one
      remembered, so the rule has no reason left to re-post it. */
  predicate Lost(s: RxState, b: nat) {
    s.lastId != b && b !in s.pending
  }

  /** A poll never re-posts a lost batch, and the batch stays lost. */
  lemma LostPoll(p: Pipeline, s: RxState, nb: int, nextRefresh: nat, b: nat)
    requires Lost(s, b) && RxPoll(p, s, nb, nextRefresh).Ok?
    ensures var s' := RxPoll(p, s, nb, nextRefresh).value;
      Lost(s', b) && s.posts <= s'.posts && forall k :: |s.posts| <= k < |s'.posts| ==> s'.posts[k] != b
  {
    var s' := RxPoll(p, s, nb, nextRefresh).value;
    assert s.pending[nb - 1] in s.pending;
    if s.pending[nb - 1] != s.lastId {
      assert s'.pending == s.pending[nb..] + Repeat(s.lastId, p.size);
      assert forall k :: 0 <= k < |s.pending[nb..]| ==> s.pending[nb..][k] in s.pending;
    } else {
      assert s'.pending == s.pending[nb..];
      assert forall k :: 0 <= k < |s.pending[nb..]| ==> s.pending[nb..][k] in s.pending;
    }
  }

  /** Once lost, a batch is never posted again, whatever polls follow. */
  lemma {:induction false} LostForever(p: Pipeline, s: RxState, es: seq<RxEvent>, b: nat)
    requires Lost(s, b)
    ensures RunRx(p, s, es).Ok? ==>
      var r := RunRx(p, s, es).value;
      Lost(r, b) && s.posts <= r.posts && b !in r.posts[|s.posts|..]
    decreases |es|
  {
    if |es| > 0 && RxPoll(p, s, es[0].nb, es[0].nextRefresh).Ok? {
      var s' := RxPoll(p, s, es[0].nb, es[0].nextRefresh).value;
      LostPoll(p, s, es[0].nb, es[0].nextRefresh, b);
      LostForever(p, s', es[1..], b);
      if RunRx(p, s, es).Ok? {
        var r := RunRx(p, s, es).value;
        assert r == RunRx(p, s', es[1..]).value;
        assert s'.posts <= r.posts;
        forall k | |s.posts| <= k < |r.posts|
          ensures r.posts[k] != b
        {
          if k < |s'.posts| {
            assert r.posts[k] == s'.posts[k];
          } else {
            assert r.posts[k] == r.posts[|s'.posts|..][k - |s'.posts|];
          }
        }
        assert forall k :: 0 <= k < |r.posts[|s.posts|..]| ==> r.posts[|s.posts|..][k] == r.posts[k + |s.posts|];
      }
    }
  }

  /** With three one-request batches, after the poll of `WiderPipelineStarves`
      batch 1 is never posted again, under any later history. */
  lemma WiderPipelineLosesBatch(es: seq<RxEvent>)
    ensures var r := RunRx(Pipeline(3, 1), RxState(2, [0], [0, 1, 2, 0], ADAPTIVE_START), es);
      r.Ok? ==> 1 !in r.value.posts[4..]
  {
    var s := RxState(2, [0], [0, 1, 2, 0], ADAPTIVE_START);
    assert Lost(s, 1) && |s.posts| == 4;
    LostForever(Pipeline(3, 1), s, es, 1);
  }

  /** The environment returns a FIFO prefix of the pending requests, and
      report thresholds of at least 1. */
  predicate Honest(p: Pipeline, s: RxState, es: seq<RxEvent>)
    decreases |es|
  {
    |es| == 0 ||
    (&& 1 <= es[0].nb <= |s.pending|
     && es[0].nextRefresh >= 1
     && (RxPoll(p, s, es[0].nb, es[0].nextRefresh).Ok? ==>
           Honest(p, RxPoll(p, s, es[0].nb, es[0].nextRefresh).value, es[1..])))
  }

  /** From priming on, any FIFO history of polls keeps the two-slot shape:
      no error, `last_id` a valid slot, the counter below its threshold. */
  lemma {:induction false} RunSafe(p: Pipeline, s: RxState, es: seq<RxEvent>)
    requires FifoShape(p, s) && Calm(s.counter) && Honest(p, s, es)
    ensures RunRx(p, s, es).Ok?
    ensures FifoShape(p, RunRx(p, s, es).value) && Calm(RunRx(p, s, es).value.counter)
    ensures RunRx(p, s, es).value.lastId < p.depth
    decreases |es|
  {
    if |es| > 0 {
      FifoPollSafe(p, s, es[0].nb, es[0].nextRefresh);
      RunSafe(p, RxPoll(p, s, es[0].nb, es[0].nextRefresh).value, es[1..]);
    }
  }
}

=== FILE: seqs.dfy ===
/** Small sequence helpers shared by the engines. */
module Seqs {

  /** The slot indices `0, 1, ..., n - 1` in order. */
  function Range(n: nat): (r: seq<nat>)
    ensures |r| == n
    ensures forall k :: 0 <= k < n ==> r[k] == k
  {
    seq(n, k => k)
  }

  /** `n` copies of `x`. */
  function Repeat(x: nat, n: nat): (r: seq<nat>)
    ensures |r| == n
    ensures forall k :: 0 <= k < n ==> r[k] == x
  {
    seq(n, _ => x)
  }

  function Sum(s: seq<nat>): nat
    decreases |s|
  {
    if |s| == 0 then 0 else s[0] + Sum(s[1..])
  }

  /** Changing one entry changes the sum by the difference. */
  lemma {:induction false} SumUpdate(s: seq<nat>, k: nat, v: nat)
    requires k < |s|
    ensures Sum(s[k := v]) + s[k] == Sum(s) + v
    decreases |s|
  {
    if k > 0 {
      assert s[k := v][1..] == s[1..][k - 1 := v];
      SumUpdate(s[1..], k - 1, v);
    } else {
      assert s[k := v][1..] == s[1..];
    }
  }

  /** A sum of entries each at most `b` is at most `b` times the length. */
  lemma {:induction false} SumBound(s: seq<nat>, b: nat)
    requires forall k :: 0 <= k < |s| ==> s[k] <= b
    ensures Sum(s) <= |s| * b
    decreases |s|
  {
    if |s| > 0 {
      SumBound(s[1..], b);
    }
  }

  predicate NoDuplicates(s: seq<nat>) {
    forall i, j :: 0 <= i < j < |s| ==> s[i] != s[j]
  }

  /** Multiplying by a natural keeps the order. */
  lemma MulMono(a: nat, b: nat, w: nat)
    requires a <= b
    ensures a * w <= b * w
  {
    assert b * w == a * w + (b - a) * w;
  }

  /** The quotient of `k < d * s` by `s` is below `d`, and `k` splits into it and the remainder. */
  lemma DivBelow(k: nat, d: nat, s: nat)
    requires s >= 1 && k < d * s
    ensures k / s < d
    ensures (k / s) * s + k % s == k
  {
    if k / s >= d {
      MulMono(d, k / s, s);
      assert false;
    }
  }

  lemma ModSmall(e: nat, n: nat)
    requires e < n
    ensures e % n == e
  {
  }
}

=== FILE: throughput.dfy ===
/** The completion counters `tx` (tx.c, rdma-pktgen.c) and `rx` (rx.c): each
    poll adds its completion count; once the count reaches the report
    threshold a rate line is printed and the count restarts from zero. The
    next threshold comes from floating-point rate arithmetic and is an input
    here; both programs make it at least 1. */
module Throughput {
  import opened Wrappers
  import opened Seqs

  datatype Counter = Counter(count: nat, refresh: nat)

  /** tx.c and rx.c start with `tx = 0` / `rx = 0` and `refresh = 1`. */
  const ADAPTIVE_START: Counter := Counter(0, 1)

  /** The threshold below which no report fires, with the count below it. */
  predicate Calm(c: Counter) {
    c.refresh >= 1 && c.count < c.refresh
  }

  /** One poll's worth of accounting; `Some(total)` when a report fires on `total`. */
  function Account(c: Counter, nb: nat, nextRefresh: nat): (r: (Counter, Option<nat>))
    ensures r.1.Some? <==> c.count + nb >= c.refresh
    ensures r.1.Some? ==> r.1.value == c.count + nb && r.0 == Counter(0, nextRefresh)
    ensures r.1.None? ==> r.0 == Counter(c.count + nb, c.refresh)
    ensures nextRefresh >= 1 && c.refresh >= 1 ==> Calm(r.0)
  {
    var total := c.count + nb;
    if total >= c.refresh then (Counter(0, nextRefresh), Some(total))
    else (Counter(total, c.refresh), None)
  }

  /** A run of polls: the final counter and the totals that were reported. */
  function AccountAll(c: Counter, nbs: seq<nat>, nexts: seq<nat>): (Counter, seq<nat>)
    requires |nbs| == |nexts|
    decreases |nbs|
  {
    if |nbs| == 0 then (c, [])
    else
      var (c', fired) := Account(c, nbs[0], nexts[0]);
      var (last, reports) := AccountAll(c', nbs[1..], nexts[1..]);
      (last, (if fired.Some? then [fired.value] else []) + reports)
  }

  /** No completion is lost or counted twice: what was reported plus what is
      still pending equals what was there plus everything polled. With
      thresholds of at least 1 the counter stays below its threshold. */
  lemma {:induction false} AccountAllConserves(c: Counter, nbs: seq<nat>, nexts: seq<nat>)
    requires |nbs| == |nexts|
    requires c.refresh >= 1
    requires forall k :: 0 <= k < |nexts| ==> nexts[k] >= 1
    ensures var (last, reports) := AccountAll(c, nbs, nexts);
      Sum(reports) + last.count == c.count + Sum(nbs) && last.refresh >= 1
    ensures |nbs| > 0 ==> Calm(AccountAll(c, nbs, nexts).0)
    decreases |nbs|
  {
    if |nbs| > 0 {
      var (c', fired) := Account(c, nbs[0], nexts[0]);
      AccountAllConserves(c', nbs[1..], nexts[1..]);
      var reports := AccountAll(c', nbs[1..], nexts[1..]).1;
      if fired.Some? {
        assert Sum([fired.value] + reports) == fired.value + Sum(reports) by {
          assert ([fired.value] + reports)[1..] == reports;
        }
      } else {
        assert [] + reports == reports;
      }
    }
  }

  /** rdma-pktgen.c reports every `(64 << 20) / TXSZ` polled batches. */
  const FIXED_REFRESH: nat := (64 * 0x10_0000) / 1024
  const INT_MAX: nat := 0x7fff_ffff

  /** The thresholds rdma-pktgen.c uses for `n` polls: always the same constant. */
  function FixedThresholds(n: nat): (r: seq<nat>)
    ensures |r| == n && forall k :: 0 <= k < n ==> r[k] == FIXED_REFRESH
  {
    seq(n, _ => FIXED_REFRESH)
  }

  /** With the fixed threshold of rdma-pktgen.c and at most 2 (TXNB)
      completions per poll, its `int tx` never overflows: before every
      addition the running count plus the poll's count fits in an `int`. */
  lemma FixedRefreshNoOverflow(c: Counter, nbs: seq<nat>)
    requires c.refresh == FIXED_REFRESH && c.count < FIXED_REFRESH
    requires forall k :: 0 <= k < |nbs| ==> nbs[k] <= 2
    ensures forall k :: 0 <= k < |nbs| ==>
      AccountAll(c, nbs[..k], FixedThresholds(k)).0.count + nbs[k] <= INT_MAX
  {
    forall k | 0 <= k < |nbs|
      ensures AccountAll(c, nbs[..k], FixedThresholds(k)).0.count + nbs[k] <= INT_MAX
    {
      FixedRefreshInvariant(c, nbs[..k]);
    }
  }

  lemma {:induction false} FixedRefreshInvariant(c: Counter, nbs: seq<nat>)
    requires c.refresh == FIXED_REFRESH && c.count < FIXED_REFRESH
    ensures var last := AccountAll(c, nbs, FixedThresholds(|nbs|)).0;
      last.refresh == FIXED_REFRESH && last.count < FIXED_REFRESH
    decreases |nbs|
  {
    if |nbs| > 0 {
      var c' := Account(c, nbs[0], FIXED_REFRESH).0;
      assert FixedThresholds(|nbs|)[1..] == FixedThresholds(|nbs| - 1);
      FixedRefreshInvariant(c', nbs[1..]);
    }
  }
}

=== FILE: tx.dfy ===
/** The transmit engine of tx.c and rdma-pktgen.c: TXNB batches of TXSZ
    chained send requests built from the corpus, posted once to fill the
    pipeline, then re-posted one by one as their (single, signalled)
    completions are polled. The hardware is an environment that may only
    complete a batch that is currently on the send queue. */
module Tx {
  import opened Wrappers
  import opened Seqs
  import opened Verbs
  import opened Pcap
  import opened Corpus
  import opened Throughput

  const TXSZ: nat := 1024
  const TXNB: nat := 2
  const TX: Pipeline := Pipeline(TXNB, TXSZ)

  /** A send work request with its single scatter/gather entry: `addr` is an
      offset into the registered region, `next` the index of the following
      request of the same batch, `signaled` the IBV_SEND_SIGNALED flag. */
  datatype SendWr = SendWr(wrId: nat, addr: nat, length: nat, next: Option<nat>, signaled: bool)

  /** The corpus element request `j` of batch `i` sends: consecutive requests
      walk the corpus, wrapping around when it is shorter than a batch. */
  function PacketIndex(p: Pipeline, n: nat, i: nat, j: nat): (k: nat)
    requires n >= 1
    ensures k < n
  {
    (i * p.size + j) % n
  }

  /** Request `j` of batch `i`: it sends corpus element `(i * size + j) mod n`. */
  function Request(p: Pipeline, c: Corpus, i: nat, j: nat): (wr: SendWr)
    requires Valid(c) && j < p.size
    ensures wr.wrId == i
    ensures wr.addr == c.packets[(i * p.size + j) % |c.packets|].offset
    ensures wr.length == c.packets[(i * p.size + j) % |c.packets|].len
    ensures wr.addr + wr.length <= c.regionLen
    ensures wr.next.Some? <==> j + 1 < p.size
    ensures wr.next.Some? ==> wr.next.value == j + 1
    ensures wr.signaled <==> j == p.size - 1
  {
    var d := c.packets[PacketIndex(p, |c.packets|, i, j)];
    SendWr(i, d.offset, d.len, if j + 1 < p.size then Some(j + 1) else None, j + 1 == p.size)
  }

  /** The nested construction loop: every request first links to its
      successor and is unsignalled, then the last one of each batch is made
      the signalled end of its chain. */
  method BuildBatches(p: Pipeline, c: Corpus) returns (wr: seq<seq<SendWr>>)
    requires p.Valid() && Valid(c)
    ensures |wr| == p.depth
    ensures forall i :: 0 <= i < p.depth ==> |wr[i]| == p.size
    ensures forall i, j :: 0 <= i < p.depth && 0 <= j < p.size ==> wr[i][j] == Request(p, c, i, j)
  {
    wr := [];
    var i := 0;
    while i < p.depth
      invariant i <= p.depth && |wr| == i
      invariant forall a :: 0 <= a < i ==> |wr[a]| == p.size
      invariant forall a, b :: 0 <= a < i && 0 <= b < p.size ==> wr[a][b] == Request(p, c, a, b)
    {
      var batch: seq<SendWr> := [];
      var j := 0;
      while j < p.size
        invariant j <= p.size && |batch| == j
        invariant forall b :: 0 <= b < j ==> batch[b] == Request(p, c, i, b).(next := Some(b + 1), signaled := false)
      {
        var d := c.packets[PacketIndex(p, |c.packets|, i, j)];
        batch := batch + [SendWr(i, d.offset, d.len, Some(j + 1), false)];
        j := j + 1;
      }
      batch := batch[p.size - 1 := batch[p.size - 1].(next := None, signaled := true)];
      wr := wr + [batch];
      i := i + 1;
    }
  }

  /** Across the whole pipeline, the requests in posting order walk the corpus
      round-robin from its first element, wrapping around as often as needed:
      the k-th request (request `k mod size` of batch `k / size`) sends
      element `k mod n`. */
  lemma RoundRobinOrder(p: Pipeline, c: Corpus, k: nat)
    requires p.Valid() && Valid(c) && k < p.depth * p.size
    ensures k / p.size < p.depth && k % p.size < p.size
    ensures Request(p, c, k / p.size, k % p.size).addr == c.packets[k % |c.packets|].offset
    ensures Request(p, c, k / p.size, k % p.size).length == c.packets[k % |c.packets|].len
  {
    DivBelow(k, p.depth, p.size);
    assert (k / p.size) * p.size + k % p.size == k;
  }

  /** When the pipeline holds at least as many requests as the corpus has
      packets, every packet `e` of the corpus is sent: by request `e mod size`
      of batch `e / size`. */
  lemma CorpusCovered(p: Pipeline, c: Corpus, e: nat)
    requires p.Valid() && Valid(c) && |c.packets| <= p.depth * p.size && e < |c.packets|
    ensures e / p.size < p.depth && e % p.size < p.size
    ensures Request(p, c, e / p.size, e % p.size).addr == c.packets[e].offset
    ensures Request(p, c, e / p.size, e % p.size).length == c.packets[e].len
  {
    RoundRobinOrder(p, c, e);
    ModSmall(e, |c.packets|);
  }

  // ---------------------------------------------------------------------
  // The slot machine.

  /** `inFlight[k]`: copies of batch k on the send queue whose completion the
      hardware has not produced yet; `cq`: ids of produced but unpolled
      completions, oldest first; `posted`: every `ibv_post_send`, in order. */
  datatype TxState = TxState(inFlight: seq<nat>, cq: seq<nat>, posted: seq<nat>, counter: Counter)

  datatype TxError = BadWrId(id: nat) | QueueFull(id: nat) | SpuriousCompletion(slot: nat) | PollFailed

  datatype TxEvent = HwComplete(slot: nat) | PollCq(nextRefresh: nat) | PollError

  /** Batches occupying the send queue: a batch leaves it when its completion is polled. */
  function Outstanding(s: TxState): nat {
    Sum(s.inFlight) + |s.cq|
  }

  /** `ibv_post_send(qp, wr[id], 0)`: a batch that would overflow the
      `max_send_wr` requests of the queue pair is refused, which is fatal for
      the program. An id outside the request array is modelled as an error
      too; in C it is an out-of-bounds read of `wr`. */
  function PostSend(p: Pipeline, s: TxState, id: nat): (r: Result<TxState, TxError>)
    ensures r.Ok? ==> (Outstanding(s) + 1) * p.size <= TxCaps(p).maxSendWr
    ensures r.Ok? ==> Outstanding(r.value) == Outstanding(s) + 1
    ensures r.Ok? ==> r.value.posted == s.posted + [id] && r.value.cq == s.cq && r.value.counter == s.counter
    ensures r.Ok? ==> |r.value.inFlight| == |s.inFlight|
    ensures r.Err? ==> r.error == BadWrId(id) || r.error == QueueFull(id)
  {
    if id >= |s.inFlight| then Err(BadWrId(id))
    else if (Outstanding(s) + 1) * p.size > TxCaps(p).maxSendWr then Err(QueueFull(id))
    else
      SumUpdate(s.inFlight, id, s.inFlight[id] + 1);
      Ok(s.(inFlight := s.inFlight[id := s.inFlight[id] + 1], posted := s.posted + [id]))
  }

  /** Posting several batches in turn: all are posted, in order, or the
      first refused post ends the program. */
  function PostAll(p: Pipeline, s: TxState, ids: seq<nat>): (r: Result<TxState, TxError>)
    ensures r.Ok? ==> r.value.posted == s.posted + ids && r.value.cq == s.cq && r.value.counter == s.counter
    ensures r.Ok? ==> |r.value.inFlight| == |s.inFlight| && Outstanding(r.value) == Outstanding(s) + |ids|
    ensures r.Err? ==> r.error.BadWrId? || r.error.QueueFull?
    decreases |ids|
  {
    if |ids| == 0 then
      assert s.posted + ids == s.posted;
      Ok(s)
    else
      match PostSend(p, s, ids[0])
      case Err(e) => Err(e)
      case Ok(s') =>
        assert s.posted + ids == s'.posted + ids[1..];
        PostAll(p, s', ids[1..])
  }

  function Start(p: Pipeline, counter: Counter): TxState {
    TxState(Repeat(0, p.depth), [], [], counter)
  }

  /** "fill the pipeline": post batches 0 .. depth-1 once each, after which
      exactly `depth` batches are on the send queue and none is completed. */
  function Prime(p: Pipeline, counter: Counter): (r: Result<TxState, TxError>)
    ensures r.Ok? ==> r.value.posted == Range(p.depth) && r.value.cq == []
    ensures r.Ok? ==> Outstanding(r.value) == p.depth && r.value.counter == counter
  {
    SumBound(Repeat(0, p.depth), 0);
    PostAll(p, Start(p, counter), Range(p.depth))
  }

  /** The hardware finishes a batch: its signalled last request produces one
      completion. Only a batch on the send queue can complete; the batch then
      waits on the completion queue, so the number of outstanding batches is
      unchanged. */
  function Complete(s: TxState, k: nat): (r: Result<TxState, TxError>)
    ensures r.Ok? <==> k < |s.inFlight| && s.inFlight[k] > 0
    ensures r.Err? ==> r.error == SpuriousCompletion(k)
    ensures r.Ok? ==> r.value.cq == s.cq + [k] && r.value.posted == s.posted
    ensures r.Ok? ==> r.value.inFlight == s.inFlight[k := s.inFlight[k] - 1] && r.value.counter == s.counter
    ensures r.Ok? ==> Outstanding(r.value) == Outstanding(s)
  {
    if k < |s.inFlight| && s.inFlight[k] > 0 then
      SumUpdate(s.inFlight, k, s.inFlight[k] - 1);
      Ok(s.(inFlight := s.inFlight[k := s.inFlight[k] - 1], cq := s.cq + [k]))
    else Err(SpuriousCompletion(k))
  }

  /** `ibv_poll_cq(cq, depth, wc)`, then one re-post per completion, of the
      batch its `wr_id` names, then the `tx` accounting. At most `depth`
      completions are taken, oldest first; each polled batch goes straight
      back on the send queue, so the number of outstanding batches is unchanged. */
  function Poll(p: Pipeline, s: TxState, nextRefresh: nat): (r: Result<TxState, TxError>)
    ensures var nb := if |s.cq| < p.depth then |s.cq| else p.depth;
      r.Ok? ==> r.value.posted == s.posted + s.cq[..nb] && r.value.cq == s.cq[nb..]
    ensures r.Ok? ==> Outstanding(r.value) == Outstanding(s)
    ensures var nb := if |s.cq| < p.depth then |s.cq| else p.depth;
      r.Ok? ==> r.value.counter == Account(s.counter, nb, nextRefresh).0
  {
    var nb := if |s.cq| < p.depth then |s.cq| else p.depth;
    assert s.cq == s.cq[..nb] + s.cq[nb..];
    match PostAll(p, s.(cq := s.cq[nb..]), s.cq[..nb])
    case Err(e) => Err(e)
    case Ok(s') => Ok(s'.(counter := Account(s'.counter, nb, nextRefresh).0))
  }

  /** One event of the loop. A failed poll is fatal; otherwise the number of
      outstanding batches is conserved and posts are only ever appended. */
  function Step(p: Pipeline, s: TxState, e: TxEvent): (r: Result<TxState, TxError>)
    ensures e.PollError? ==> r == Err(PollFailed)
    ensures e.HwComplete? ==> r.Ok? || r.error == SpuriousCompletion(e.slot)
    ensures r.Ok? ==> Outstanding(r.value) == Outstanding(s) && s.posted <= r.value.posted
  {
    match e
    case HwComplete(k) => Complete(s, k)
    case PollCq(next) => Poll(p, s, next)
    case PollError => Err(PollFailed)
  }

  /** A run of events: the number of outstanding batches is conserved and the
      post log only grows. */
  function RunTx(p: Pipeline, s: TxState, es: seq<TxEvent>): (r: Result<TxState, TxError>)
    ensures r.Ok? ==> Outstanding(r.value) == Outstanding(s) && s.posted <= r.value.posted
    decreases |es|
  {
    if |es| == 0 then Ok(s)
    else
      match Step(p, s, es[0])
      case Err(e) => Err(e)
      case Ok(s') => RunTx(p, s', es[1..])
  }

  /** What the environment may do: complete only a batch that is on the send
      queue, never fail a poll, and supply report thresholds of at least 1. */
  predicate Allowed(s: TxState, e: TxEvent) {
    match e
    case HwComplete(k) => k < |s.inFlight| && s.inFlight[k] > 0
    case PollCq(next) => next >= 1
    case PollError => false
  }

  predicate Honest(p: Pipeline, s: TxState, es: seq<TxEvent>)
    decreases |es|
  {
    |es| == 0 ||
    (Allowed(s, es[0]) && (Step(p, s, es[0]).Ok? ==> Honest(p, Step(p, s, es[0]).value, es[1..])))
  }

  /** The steady-state invariant: each slot holds at most one batch, which is
      either on the send queue or has exactly one unpolled completion, so the
      queue holds exactly `depth` batches. */
  predicate Inv(p: Pipeline, s: TxState) {
    && p.Valid()
    && |s.inFlight| == p.depth
    && (forall k :: 0 <= k < p.depth ==> s.inFlight[k] <= 1)
    && (forall i :: 0 <= i < |s.cq| ==> s.cq[i] < p.depth && s.inFlight[s.cq[i]] == 0)
    && NoDuplicates(s.cq)
    && Outstanding(s) == p.depth
    && Calm(s.counter)
  }

  /** Under the invariant at most depth * size requests are outstanding, and no
      slot is on the send queue twice. */
  lemma OutstandingBound(p: Pipeline, s: TxState)
    requires Inv(p, s)
    ensures p.size * Sum(s.inFlight) <= TxCaps(p).maxSendWr
    ensures |s.cq| <= p.depth == TxCaps(p).cqe
  {
    SumBound(s.inFlight, 1);
    assert p.size * Sum(s.inFlight) <= p.size * p.depth;
  }

  /** Re-posting one completed batch, when the queue has room for it, puts
      exactly that batch back on the send queue. */
  lemma PostOneCompleted(p: Pipeline, s: TxState, id: nat)
    requires p.Valid() && |s.inFlight| == p.depth
    requires id < p.depth && s.inFlight[id] == 0
    requires Outstanding(s) < p.depth
    ensures PostSend(p, s, id).Ok?
    ensures PostSend(p, s, id).value == s.(inFlight := s.inFlight[id := 1], posted := s.posted + [id])
  {
    MulMono(Outstanding(s) + 1, p.depth, p.size);
  }

  /** What re-posting completed batches requires: distinct slots that are
      off the send queue, exactly as many as the queue has room for. */
  predicate Repostable(p: Pipeline, s: TxState, ids: seq<nat>) {
    && p.Valid() && |s.inFlight| == p.depth
    && (forall i :: 0 <= i < |ids| ==> ids[i] < p.depth && s.inFlight[ids[i]] == 0)
    && NoDuplicates(ids)
    && Outstanding(s) + |ids| == p.depth
  }

  /** After re-posting the first of the ids, the rest are still repostable. */
  lemma RepostableTail(p: Pipeline, s: TxState, ids: seq<nat>)
    requires |ids| > 0 && Repostable(p, s, ids)
    ensures PostSend(p, s, ids[0]).Ok?
    ensures PostSend(p, s, ids[0]).value == s.(inFlight := s.inFlight[ids[0] := 1], posted := s.posted + [ids[0]])
    ensures Repostable(p, PostSend(p, s, ids[0]).value, ids[1..])
  {
    var id, rest := ids[0], ids[1..];
    PostOneCompleted(p, s, id);
    var s1 := PostSend(p, s, id).value;
    forall i | 0 <= i < |rest| ensures rest[i] < p.depth && s1.inFlight[rest[i]] == 0 {
      assert rest[i] == ids[i + 1];
    }
  }

  /** Re-posting repostable ids succeeds, posts exactly those ids, and fills
      the send queue. */
  lemma {:induction false} PostAllCompleted(p: Pipeline, s: TxState, ids: seq<nat>)
    requires Repostable(p, s, ids)
    ensures PostAll(p, s, ids).Ok?
    ensures var s' := PostAll(p, s, ids).value;
      && s'.posted == s.posted + ids && s'.cq == s.cq && s'.counter == s.counter
      && |s'.inFlight| == p.depth && Outstanding(s') == p.depth
    decreases |ids|
  {
    if |ids| > 0 {
      RepostableTail(p, s, ids);
      var s1 := PostSend(p, s, ids[0]).value;
      PostAllCompleted(p, s1, ids[1..]);
      assert s.posted + ids == s1.posted + ids[1..];
    } else {
      assert s.posted + ids == s.posted;
    }
  }

  /** Re-posting repostable ids puts each of them back on the send queue once
      and leaves every other slot as it was. */
  lemma {:induction false} PostAllMarks(p: Pipeline, s: TxState, ids: seq<nat>)
    requires Repostable(p, s, ids)
    ensures PostAll(p, s, ids).Ok? && |PostAll(p, s, ids).value.inFlight| == p.depth
    ensures forall k :: 0 <= k < p.depth ==>
      PostAll(p, s, ids).value.inFlight[k] == if k in ids then 1 else s.inFlight[k]
    decreases |ids|
  {
    PostAllCompleted(p, s, ids);
    if |ids| > 0 {
      var id, rest := ids[0], ids[1..];
      RepostableTail(p, s, ids);
      var s1 := PostSend(p, s, id).value;
      PostAllMarks(p, s1, rest);
      var s' := PostAll(p, s, ids).value;
      forall k | 0 <= k < p.depth
        ensures s'.inFlight[k] == if k in ids then 1 else s.inFlight[k]
      {
        assert (k in ids) == (k == id || k in rest) by {
          assert ids == [id] + rest;
        }
      }
    }
  }

  /** Priming posts every batch exactly once, in slot order, and establishes the invariant. */
  lemma PrimeEstablishes(p: Pipeline, counter: Counter)
    requires p.Valid() && Calm(counter)
    ensures Prime(p, counter).Ok?
    ensures Inv(p, Prime(p, counter).value)
    ensures Prime(p, counter).value.posted == Range(p.depth)
    ensures forall k :: 0 <= k < p.depth ==> Prime(p, counter).value.inFlight[k] == 1
  {
    var s0 := Start(p, counter);
    SumBound(s0.inFlight, 0);
    PostAllCompleted(p, s0, Range(p.depth));
    PostAllMarks(p, s0, Range(p.depth));
    var s := Prime(p, counter).value;
    forall k | 0 <= k < p.depth ensures s.inFlight[k] == 1 {
      assert Range(p.depth)[k] == k;
    }
  }

  /** A completion of a batch on the send queue keeps the invariant: the
      batch moves from the send queue to the completion queue. */
  lemma CompletePreserves(p: Pipeline, s: TxState, k: nat)
    requires Inv(p, s) && k < |s.inFlight| && s.inFlight[k] > 0
    ensures Complete(s, k).Ok? && Inv(p, Complete(s, k).value)
    ensures Complete(s, k).value.posted == s.posted
  {
    SumUpdate(s.inFlight, k, s.inFlight[k] - 1);
    var s' := Complete(s, k).value;
    assert forall i :: 0 <= i < |s.cq| ==> s.cq[i] != k;
    forall i | 0 <= i < |s'.cq| ensures s'.cq[i] < p.depth && s'.inFlight[s'.cq[i]] == 0 {
      if i < |s.cq| { assert s'.cq[i] == s.cq[i]; } else { assert s'.cq[i] == k; }
    }
  }

  /** A poll returns at most `depth` completions, here all of them, and
      re-posts exactly the batches they name, each once; the invariant holds
      afterwards. */
  lemma PollPreserves(p: Pipeline, s: TxState, next: nat)
    requires Inv(p, s) && next >= 1
    ensures |s.cq| <= p.depth
    ensures Poll(p, s, next).Ok? && Inv(p, Poll(p, s, next).value)
    ensures Poll(p, s, next).value.posted == s.posted + s.cq
    ensures Poll(p, s, next).value.cq == []
    ensures forall i :: 0 <= i < |s.cq| ==> Poll(p, s, next).value.inFlight[s.cq[i]] == 1
  {
    OutstandingBound(p, s);
    var s1 := s.(cq := []);
    assert s.cq[|s.cq|..] == [] && s.cq[..|s.cq|] == s.cq;
    PostAllCompleted(p, s1, s.cq);
    PostAllMarks(p, s1, s.cq);
    var s2 := PostAll(p, s1, s.cq).value;
    forall k | 0 <= k < p.depth ensures s2.inFlight[k] <= 1 { }
    forall i | 0 <= i < |s.cq| ensures s2.inFlight[s.cq[i]] == 1 {
      assert s.cq[i] in s.cq;
    }
    var s3 := Poll(p, s, next).value;
    assert s3 == s2.(counter := Account(s2.counter, |s.cq|, next).0);
  }

  /** One step of an honest environment keeps the invariant and never fails. */
  lemma StepPreserves(p: Pipeline, s: TxState, e: TxEvent)
    requires Inv(p, s) && Allowed(s, e)
    ensures Step(p, s, e).Ok? && Inv(p, Step(p, s, e).value)
  {
    match e
    case HwComplete(k) => CompletePreserves(p, s, k);
    case PollCq(next) => PollPreserves(p, s, next);
    case PollError =>
  }

  /** An honest environment can never drive the engine into a failure, and
      the invariant holds after any number of steps. */
  lemma {:induction false} RunPreserves(p: Pipeline, s: TxState, es: seq<TxEvent>)
    requires Inv(p, s) && Honest(p, s, es)
    ensures RunTx(p, s, es).Ok? && Inv(p, RunTx(p, s, es).value)
    decreases |es|
  {
    if |es| > 0 {
      StepPreserves(p, s, es[0]);
      RunPreserves(p, Step(p, s, es[0]).value, es[1..]);
    }
  }

  /** The tx.c engine from start-up: after priming, any honest history keeps
      every slot alternating between posted and completed, with at most
      TXNB * TXSZ requests outstanding. */
  lemma EngineSafe(es: seq<TxEvent>)
    requires Honest(TX, Prime(TX, ADAPTIVE_START).value, es)
    ensures var s := RunTx(TX, Prime(TX, ADAPTIVE_START).value, es);
      && s.Ok? && Inv(TX, s.value)
      && TX.size * Sum(s.value.inFlight) <= TXNB * TXSZ
  {
    PrimeEstablishes(TX, ADAPTIVE_START);
    RunPreserves(TX, Prime(TX, ADAPTIVE_START).value, es);
    OutstandingBound(TX, RunTx(TX, Prime(TX, ADAPTIVE_START).value, es).value);
  }

  /** Running a non-empty history is running its first step, then the rest. */
  lemma RunTxCons(p: Pipeline, s: TxState, es: seq<TxEvent>)
    requires |es| > 0 && Step(p, s, es[0]).Ok?
    ensures RunTx(p, s, es) == RunTx(p, Step(p, s, es[0]).value, es[1..])
  {
  }

  /** The first half of a round: both batches of the TX pipeline complete, in order. */
  lemma RoundCompletions(s0: TxState)
    requires Inv(TX, s0) && s0.inFlight == [1, 1] && s0.cq == []
    ensures var s2 := RunTx(TX, s0, [HwComplete(0), HwComplete(1)]);
      s2.Ok? && Inv(TX, s2.value) && s2.value.inFlight == [0, 0] && s2.value.cq == [0, 1]
      && s2.value.posted == s0.posted
  {
    CompletePreserves(TX, s0, 0);
    var s1 := Complete(s0, 0).value;
    assert s1.inFlight == [0, 1] && s1.cq == [0];
    CompletePreserves(TX, s1, 1);
    var s2 := Complete(s1, 1).value;
    assert s2.inFlight == [0, 0];
    RunTxCons(TX, s0, [HwComplete(0), HwComplete(1)]);
    assert [HwComplete(0), HwComplete(1)][1..] == [HwComplete(1)];
    RunTxCons(TX, s1, [HwComplete(1)]);
  }

  /** The second half: one poll collects both completions and re-posts batch
      0, then batch 1. */
  lemma RoundPoll(s2: TxState)
    requires Inv(TX, s2) && s2.cq == [0, 1]
    ensures var s3 := RunTx(TX, s2, [PollCq(1)]);
      s3.Ok? && s3.value.posted == s2.posted + [0, 1] && s3.value.inFlight == [1, 1] && s3.value.cq == []
  {
    PollPreserves(TX, s2, 1);
    var s3 := Poll(TX, s2, 1).value;
    assert s2.cq[0] == 0 && s2.cq[1] == 1;
    assert s3.inFlight[s2.cq[0]] == 1 && s3.inFlight[s2.cq[1]] == 1;
    assert s3.inFlight == [1, 1];
    RunTxCons(TX, s2, [PollCq(1)]);
  }

  /** A full round: both batches complete, one poll
      collects both completions and re-posts each batch exactly once. */
  lemma RoundRobinRound()
    ensures Prime(TX, ADAPTIVE_START).Ok?
    ensures var s := RunTx(TX, Prime(TX, ADAPTIVE_START).value, [HwComplete(0), HwComplete(1), PollCq(1)]);
      s.Ok? && s.value.posted == [0, 1, 0, 1] && s.value.inFlight == [1, 1] && s.value.cq == []
  {
    PrimeEstablishes(TX, ADAPTIVE_START);
    var s0 := Prime(TX, ADAPTIVE_START).value;
    assert Range(TXNB) == [0, 1];
    assert s0.inFlight == [1, 1];
    RoundCompletions(s0);
    var s2 := RunTx(TX, s0, [HwComplete(0), HwComplete(1)]).value;
    RoundPoll(s2);
    RunSplit(TX, s0, [HwComplete(0), HwComplete(1)], [PollCq(1)]);
    assert [HwComplete(0), HwComplete(1)] + [PollCq(1)] == [HwComplete(0), HwComplete(1), PollCq(1)];
  }

  /** Running two histories one after the other is running their concatenation. */
  lemma {:induction false} RunSplit(p: Pipeline, s: TxState, a: seq<TxEvent>, b: seq<TxEvent>)
    requires RunTx(p, s, a).Ok?
    ensures RunTx(p, s, a + b) == RunTx(p, RunTx(p, s, a).value, b)
    decreases |a|
  {
    if |a| > 0 {
      assert (a + b)[0] == a[0] && (a + b)[1..] == a[1..] + b;
      RunSplit(p, Step(p, s, a[0]).value, a[1..], b);
    } else {
      assert a + b == b;
    }
  }
}

=== FILE: verbs.dfy ===
/** The part of the verbs transport the programs rely on: queue-pair sizing,
    the RESET -> INIT -> RTR -> RTS configuration ladder of `rdma_create_qp`
    (and of its inline copy in rdma-pktgen.c), and pipeline dimensions. */
module Verbs {
  import opened Wrappers

  /** Access flags of a memory registration: 0, or IBV_ACCESS_LOCAL_WRITE. */
  const ACCESS_NONE: nat := 0
  const ACCESS_LOCAL_WRITE: nat := 1

  /** A pipeline of `depth` batches of `size` chained work requests. */
  datatype Pipeline = Pipeline(depth: nat, size: nat) {
    predicate Valid() {
      depth >= 1 && size >= 1
    }
  }

  /** The sizing arguments a program passes for its queue pair, its single
      completion queue and its memory registration. */
  datatype QpCaps = QpCaps(cqe: nat, maxSendWr: nat, maxRecvWr: nat, access: nat)

  datatype QpState = Reset | Init | ReadyToReceive | ReadyToSend

  /** The bring-up calls in the order they are made; each one is fatal if refused. */
  datatype BringUpStep =
    | GetDeviceList | FindDevice | OpenDevice | CreateCq | AllocPd | CreateQp
    | ModifyToInit | ModifyToRtr | ModifyToRts | RegisterMr

  const BRING_UP: seq<BringUpStep> := [
    GetDeviceList, FindDevice, OpenDevice, CreateCq, AllocPd, CreateQp,
    ModifyToInit, ModifyToRtr, ModifyToRts, RegisterMr]

  /** The queue-pair state after a step that succeeded. */
  function After(s: QpState, step: BringUpStep): QpState {
    match step
    case ModifyToInit => Init
    case ModifyToRtr => ReadyToReceive
    case ModifyToRts => ReadyToSend
    case _ => s
  }

  /** Runs `steps` from state `s`; the environment's `accepts` says which calls
      the transport grants. The first refused call ends the program. */
  function Run(steps: seq<BringUpStep>, accepts: BringUpStep -> bool, s: QpState): (r: Result<QpState, BringUpStep>)
    ensures r.Err? ==> r.error in steps && !accepts(r.error)
    ensures r.Ok? ==> forall k :: 0 <= k < |steps| ==> accepts(steps[k])
    decreases |steps|
  {
    if |steps| == 0 then Ok(s)
    else if !accepts(steps[0]) then Err(steps[0])
    else Run(steps[1..], accepts, After(s, steps[0]))
  }

  /** Bring-up succeeds exactly when every call is granted, and then leaves the
      queue pair ready to send (hence also to receive); otherwise it names the
      first refused call. */
  lemma BringUpOutcome(accepts: BringUpStep -> bool)
    ensures Run(BRING_UP, accepts, Reset).Ok? <==> forall k :: 0 <= k < |BRING_UP| ==> accepts(BRING_UP[k])
    ensures Run(BRING_UP, accepts, Reset).Ok? ==> Run(BRING_UP, accepts, Reset).value == ReadyToSend
    ensures Run(BRING_UP, accepts, Reset).Err? ==>
      exists k :: 0 <= k < |BRING_UP| && Run(BRING_UP, accepts, Reset).error == BRING_UP[k] && !accepts(BRING_UP[k])
        && forall i :: 0 <= i < k ==> accepts(BRING_UP[i])
  {
    if forall k :: 0 <= k < |BRING_UP| ==> accepts(BRING_UP[k]) {
      RunAll(BRING_UP, accepts, Reset);
      BringUpReachesRts();
    } else {
      var k := FirstRefused(BRING_UP, accepts);
      RunFirstRefused(BRING_UP, accepts, Reset, k);
    }
  }

  /** Index of the first step `accepts` refuses. */
  function FirstRefused(steps: seq<BringUpStep>, accepts: BringUpStep -> bool): (k: nat)
    requires exists k :: 0 <= k < |steps| && !accepts(steps[k])
    ensures k < |steps| && !accepts(steps[k])
    ensures forall i :: 0 <= i < k ==> accepts(steps[i])
    decreases |steps|
  {
    if !accepts(steps[0]) then 0
    else
      assert exists k :: 0 <= k < |steps[1..]| && !accepts(steps[1..][k]) by {
        var k :| 0 <= k < |steps| && !accepts(steps[k]);
        assert steps[1..][k - 1] == steps[k];
      }
      1 + FirstRefused(steps[1..], accepts)
  }

  lemma BringUpReachesRts()
    ensures RunStates(BRING_UP, Reset) == ReadyToSend
  {
    var s6 := RunStates(BRING_UP[6..], Reset);
    assert RunStates(BRING_UP, Reset) == RunStates(BRING_UP[6..], Reset) by {
      RunStatesSkip(BRING_UP, Reset, 6);
    }
    assert BRING_UP[6..] == [ModifyToInit, ModifyToRtr, ModifyToRts, RegisterMr];
  }

  /** Steps before the first `modify` leave the state alone. */
  lemma {:induction false} RunStatesSkip(steps: seq<BringUpStep>, s: QpState, n: nat)
    requires n <= |steps|
    requires forall i :: 0 <= i < n ==> After(s, steps[i]) == s
    ensures RunStates(steps, s) == RunStates(steps[n..], s)
    decreases n
  {
    if n > 0 {
      assert After(s, steps[0]) == s;
      RunStatesSkip(steps[1..], s, n - 1);
      assert steps[1..][n - 1..] == steps[n..];
    }
  }

  function RunStates(steps: seq<BringUpStep>, s: QpState): QpState
    decreases |steps|
  {
    if |steps| == 0 then s else RunStates(steps[1..], After(s, steps[0]))
  }

  lemma {:induction false} RunAll(steps: seq<BringUpStep>, accepts: BringUpStep -> bool, s: QpState)
    requires forall k :: 0 <= k < |steps| ==> accepts(steps[k])
    ensures Run(steps, accepts, s) == Ok(RunStates(steps, s))
    decreases |steps|
  {
    if |steps| > 0 {
      assert accepts(steps[0]);
      RunAll(steps[1..], accepts, After(s, steps[0]));
    }
  }

  lemma {:induction false} RunFirstRefused(steps: seq<BringUpStep>, accepts: BringUpStep -> bool, s: QpState, k: nat)
    requires k < |steps| && !accepts(steps[k])
    requires forall i :: 0 <= i < k ==> accepts(steps[i])
    ensures Run(steps, accepts, s) == Err(steps[k])
    decreases |steps|
  {
    if k > 0 {
      assert accepts(steps[0]);
      RunFirstRefused(steps[1..], accepts, After(s, steps[0]), k - 1);
    }
  }

  /** tx.c and rdma-pktgen.c: one completion per batch, room for every request
      of every batch on the send queue, nothing on the receive queue. */
  function TxCaps(p: Pipeline): (c: QpCaps)
    ensures c.cqe == p.depth
    ensures c.maxSendWr == c.cqe * p.size
    ensures c.maxRecvWr == 0 && c.access == ACCESS_NONE
  {
    QpCaps(p.depth, p.depth * p.size, 0, ACCESS_NONE)
  }

  /** rx.c: one completion per receive buffer, room for every buffer on the
      receive queue, nothing on the send queue, buffers writable by the NIC. */
  function RxCaps(p: Pipeline): (c: QpCaps)
    ensures c.cqe == c.maxRecvWr == p.depth * p.size
    ensures c.maxSendWr == 0 && c.access == ACCESS_LOCAL_WRITE
  {
    QpCaps(p.depth * p.size, 0, p.depth * p.size, ACCESS_LOCAL_WRITE)
  }
}

=== FILE: wrappers.dfy ===
/** Failure-compatible result type shared by the loader and the engines.
    Every fatal `assert` of the C programs becomes an `Err` value here. */
module Wrappers {

  datatype Option<+T> = None | Some(value: T)

  datatype Result<+T, +E> = Ok(value: T) | Err(error: E) {

    predicate IsFailure() {
      Err?
    }

    function PropagateFailure<U>(): Result<U, E>
      requires Err?
    {
      Err(error)
    }

    function Extract(): T
      requires Ok?
    {
      value
    }
  }
}
